=== FILE: README.md ===
# anonymize-dicom: the linkage core, in Dafny

anonymize-dicom de-identifies folders of DICOM studies. Each folder is
exported under an anonymous scan code. A CSV link table keeps the one
record that ties codes back to patients. This project models the part of
`anonymize_folder` that decides those codes, plus two pure helpers of
`record_dicoms`:

- **Name resolution** (`Linkage.ResolveName`): the `"anonymous"` placeholder
  left by an earlier run is dropped from the folder's patient names. A
  single remaining name is taken. Several names need the operator's answer,
  which stands in for the interactive `input()` prompt as an
  `Option<string>` parameter.
- **Code assignment** (`Linkage.Link`, and the imperative
  `Linkage.AnonymizeFolder` proved equal to it):
  - With no link file, the folder gets patient 1, scan 1.
  - A patient already in the table keeps its patient code and gets one more
    than its highest scan index. Before that, the folder must not be in the
    table already, and the patient's rows must agree on a single patient
    code.
  - A new patient gets one more than the highest patient index in the
    table, scan 1.
  - The new row is appended to the table.
  - Each failing `assert`, `int()`, `[0]` (line 72, on an empty name list: `EmptyName`), `[1]` or `max()` is an `Error` value.
- **Codes** (module `Codes`): the patient code `'P' + "%04d"`, the scan code
  `pt_code + '_' + "%02d"`, and how `int(code.strip('P'))` and
  `int(code.strip('P').split('_')[1])` read the indices back.
- **Image plane** (module `ImagePlane`, `file_plane`): the cross product of
  the rounded row and column direction cosines of Image Orientation
  (Patient), and the first axis, x then y then z, along which that normal
  has magnitude 1.
- **Series folder name** (module `SeriesFolder`): the series description,
  or "N/A" when there is none, with ' ', '*', ':', '/' and '?' replaced one
  after another.

The link table is a value (`seq<Row>`), as the data frame is: `df.append`
returns a new frame. The loop methods `Linkage.SelectName`,
`Linkage.FindFolder` and `Linkage.MaxIndex` stand for the `set(...)`
membership tests, the `.loc` column selections and the `max` over a list
comprehension. `Linkage.AssignCodes` and `Linkage.AnonymizeFolder` are
built from them. Each method is proved equal to a reference function. The properties are proved about those functions, mostly in
module `LinkageProperties`. The main results:

- the link table keeps one patient code per name, one name per patient
  code and unique scan codes (`LinkageProperties.LinkPreservesConsistency`);
- every patient code's scan indices stay gap-free from 1, so with unique
  scan codes they are exactly 1, 2, ..., k
  (`LinkageProperties.LinkPreservesDenseScans`);
- each check of the known-patient branch and the `max()` of the
  new-patient branch fails with its own error, for every table
  (`LinkageProperties.KnownFolderRejected`, `ConflictingCodesRejected`,
  `UnreadableCodeRejected`, `EmptyTableRejected`);
- a second run on the same folder is rejected
  (`LinkageProperties.SecondRunRejected`);
- a new scan of a known patient gets the next scan code
  (`LinkageProperties.ReprocessSamePatient`).

## Model

| member | source | states |
|---|---|---|
| Codes.DecimalDigits | anonymize.py:94-95 | "%d" writes at least one character, every one a decimal digit, with no leading zero unless it writes "0" alone |
| Codes.DecimalCanonical | anonymize.py:94-95 | any digit string without a leading zero (other than "0") whose value is n is exactly "%d" % n: the numeral is unique |
| Codes.ZeroPadDigits | anonymize.py:94-95 | "%0Nd" gives a string of decimal digits whose length is the larger of the width and the number's own digit count: it pads and never truncates |
| Codes.ValueOfDecimal | anonymize.py:94-95 | reading "%d" % n back as a decimal gives n, for every n |
| Codes.ValueOfZeroPad | anonymize.py:94-95 | reading the zero-padded numeral back as a decimal gives the number: padding zeros never change the value |
| Codes.Split | anonymize.py:90 | str.split always returns at least one field |
| Codes.SplitNoSeparator | anonymize.py:90 | a string without the separator splits into itself alone |
| Codes.SplitFirst | anonymize.py:90 | splitting a + sep + b gives a, then the fields of b |
| Codes.StripDigits | anonymize.py:87 | strip('P') removes exactly the leading 'P' from 'P' + digits |
| Codes.StripDigitFields | anonymize.py:90 | strip('P') removes exactly the leading 'P' from 'P' + digits + '_' + digits |
| Codes.NoSeparatorInDigits | anonymize.py:90 | a zero-padded field holds no '_', so split('_') cannot cut it |
| Codes.Decimal | anonymize.py:94-95 | definition: "%d" of a natural number; pinned down by `Codes.DecimalDigits`, `Codes.ValueOfDecimal` and `Codes.DecimalCanonical` |
| Codes.ZeroPad | anonymize.py:94-95 | definition: "%04d" / "%02d", the numeral left-padded with zeros to the width; pinned down by `Codes.ZeroPadDigits` and `Codes.ValueOfZeroPad` |
| Codes.PatientCode | anonymize.py:94 | definition: 'P' + "%04d"; read back by `Codes.PatientCodeRoundTrip` |
| Codes.ScanCode | anonymize.py:95 | definition: patient code + '_' + "%02d"; read back by `Codes.ScanCodeRoundTrip` |
| Codes.Strip | anonymize.py:87 | definition: str.strip of one character, as lstrip then rstrip; pinned down by `Codes.StripDigits`, `StripDigitFields` |
| Codes.ParseNat | anonymize.py:87 | definition: Some(value) on a non-empty ASCII digit string, None on every other string (int() would read some of those; see Left out) |
| Codes.PatientIndex | anonymize.py:87 | definition: int(code.strip('P')); inverts PatientCode by `Codes.PatientCodeRoundTrip` |
| Codes.ScanIndex | anonymize.py:90 | definition: int(code.strip('P').split('_')[1]), None for a missing field; inverts ScanCode by `Codes.ScanCodeRoundTrip` |
| Codes.PatientCodeRoundTrip | anonymize.py:87-94 | int(code.strip('P')) on the code 'P' + "%04d" % p gives p back, for every p |
| Codes.ScanCodeFields | anonymize.py:90-95 | split('_') on a stripped scan code yields exactly the two zero-padded fields |
| Codes.ScanCodeRoundTrip | anonymize.py:90-95 | int(code.strip('P').split('_')[1]) on the scan code of p and m gives m back |
| Codes.ScanCodeExtendsPatientCode | anonymize.py:95 | a scan code starts with its patient code followed by '_' |
| Codes.PatientCodeInjective | anonymize.py:94 | different patient indices give different patient codes |
| Codes.ScanCodeInjective | anonymize.py:94-95 | different (patient, scan) index pairs give different scan codes |
| Codes.FirstCodes | anonymize.py:76-77 | the first codes are "P0001" and "P0001_01", and the next scan is "P0001_02" |
| Linkage.RemoveFirst | anonymize.py:62-65 | drops the first occurrence of the value; line 62 calls it only when the value is present (Python's list.remove raises ValueError otherwise) |
| Linkage.RemoveFirstSpec | anonymize.py:62-65 | the element dropped is the first occurrence of the value, and the others keep their order |
| Linkage.RemoveFirstKeepsHead | anonymize.py:62-65 | (helper) a head other than the value stays in front of the list |
| Linkage.RemoveFirstBehindHead | anonymize.py:62-65 | (helper) when the head differs from the value, the occurrence dropped from the tail is the one dropped |
| Linkage.ResolveName | anonymize.py:61-72 | definition: drop one placeholder, take a single remaining name, ask the operator when several remain; characterised by `LinkageProperties.ResolveWithoutOperator` and `ResolveWithOperator` |
| Linkage.KnownName | anonymize.py:81 | definition: `pt_name in set(df['PatientName'])`; pinned down by `Linkage.SelectName` and `Linkage.KnownIffRows` |
| Linkage.HasFolder | anonymize.py:83 | definition: `folder_gt in set(df['folder_gt'])`; pinned down by `Linkage.FindFolder` |
| Linkage.PtColumn | anonymize.py:85-92 | definition: the `anonymized_pt` column of the selected rows (line 85), and of the whole table (line 92); pinned down by `LinkageProperties.ColumnsAt` and `Linkage.ColumnLength` |
| Linkage.ScanColumn | anonymize.py:89 | definition: the `anonymized_scanfolder` column of the selected rows; pinned down by `LinkageProperties.ColumnsAt` and `Linkage.ColumnLength` |
| Linkage.Assign | anonymize.py:94-111 | definition: formats the codes of lines 94-95, fills the record fields of lines 98-100 and appends the row as `df.append` does on line 111; pinned down by `LinkageProperties.AssignWellFormed` and the ensures of `Linkage.Link` |
| Linkage.NameRows | anonymize.py:85-89 | the `.loc[PatientName == name]` selection holds exactly the rows of the table with that name |
| Linkage.ParseAll | anonymize.py:90-92 | definition: the list comprehension of index reads, failing on the first code that cannot be read; its contract is `Linkage.ParseAllSpec` |
| Linkage.ParseAllSpec | anonymize.py:90-92 | the comprehension either reads every code, position by position, or fails with the error of a code that cannot be read |
| Linkage.ParseAllStopsAtError | anonymize.py:90-92 | the first code that fails to parse decides the error; later codes are not looked at |
| Linkage.Max | anonymize.py:90-92 | max of a non-empty list is an element of it and bounds every element |
| Linkage.HighestIndex | anonymize.py:90-92 | definition: max of the indices read from the codes, the first unreadable code or no code at all being the error; its contract is `Linkage.HighestIndexSpec` |
| Linkage.KnownIndices | anonymize.py:83-90 | definition: the folder check, the single-code check, the patient index of the first code and one more than the highest scan index; proved by `LinkageProperties.KnownIndicesOk`, `KnownFolderRejected`, `ConflictingCodesRejected`, `UnreadableCodeRejected` |
| Linkage.ReadIndices | anonymize.py:87-90 | definition: the patient index of the first code and one more than the highest scan index, or the error of the read that fails |
| Linkage.LinkKnown | anonymize.py:81-100 | definition: the known-patient branch appends the row of KnownIndices; proved by `LinkageProperties.KnownNextScan`, `KnownKeepsCode` |
| Linkage.LinkNew | anonymize.py:91-100 | definition: the new-patient branch appends patient max + 1, scan 1; proved by `LinkageProperties.NewFreshCode`, `EmptyTableRejected` |
| Linkage.LinkName | anonymize.py:75-100 | definition: no link file gives patient 1, scan 1, otherwise the branch on the name; proved by `LinkageProperties.NoTableFirstCodes`, `LinkBranch` |
| Linkage.HighestIndexSpec | anonymize.py:90-92 | succeeds exactly when the codes are non-empty and all parse; the result is one of the indices and bounds all of them; no codes is the empty-max error |
| Linkage.Link | anonymize.py:59-111 | on success the table grows by exactly the new row; that row carries the folder and the resolved name |
| Linkage.MaxIndex | anonymize.py:90-92 | the loop computes HighestIndex, the error included |
| Linkage.SelectName | anonymize.py:81-89 | the scan of the table yields exactly the name's patient and scan code columns, in table order; the name is known exactly when its column is non-empty |
| Linkage.FindFolder | anonymize.py:83 | the scan reports the folder exactly when some row records it |
| Linkage.KnownIffRows | anonymize.py:81-85 | a name is in the table exactly when its patient code selection is non-empty |
| Linkage.ScanStep | anonymize.py:83-89 | one more row extends the name's selection by that row when it carries the name, and adds its folder |
| Linkage.ColumnsSnoc | anonymize.py:85-89 | one more row adds its codes at the end of both code columns |
| Linkage.ColumnLength | anonymize.py:85-87 | the patient code column has one entry per selected row |
| Linkage.AssignCodes | anonymize.py:74-95 | the imperative branch on the link file and the name gives the reference code assignment |
| Linkage.AnonymizeFolder | anonymize.py:59-111 | the whole step equals Link: the result, every error, and a table grown by exactly the new row |
| LinkageProperties.DistinctCardinality | anonymize.py:62-67 | a name list without repeats has as many names as its set |
| LinkageProperties.RemoveFirstDistinct | anonymize.py:62-65 | removing the placeholder from a list without repeats removes it from the set of names |
| LinkageProperties.CleanedNames | anonymize.py:61-67 | after the placeholder is removed, the names left are exactly the real names |
| LinkageProperties.ResolveWithoutOperator | anonymize.py:61-72 | with no operator answer, resolution succeeds if and only if exactly one real name exists, and yields it; no real name and several real names are the two errors |
| LinkageProperties.ResolveWithOperator | anonymize.py:67-72 | the operator's answer is taken exactly when several real names exist; otherwise it is ignored |
| LinkageProperties.ResolvedNameIsReal | anonymize.py:61-72 | without an operator, the resolved name is one of the folder's names and never the placeholder |
| LinkageProperties.PlaceholderDiscarded | anonymize.py:61-72 | a folder named both "anonymous" and a patient resolves to the patient, whichever comes first |
| LinkageProperties.GenuineConflict | anonymize.py:67-69 | two real names are an error without the operator and the operator's choice with one |
| LinkageProperties.ColumnsAt | anonymize.py:85-89 | the code columns have one entry per row, in order |
| LinkageProperties.RowInColumns | anonymize.py:85-89 | every table row with the name shows up in the name's selection and in both of its code columns |
| LinkageProperties.ColumnRowInTable | anonymize.py:85-89 | every row of the name's selection is a table row with that name |
| LinkageProperties.UnknownNameRows | anonymize.py:81-91 | a name not in the table selects no rows |
| LinkageProperties.NameRowsAppend | anonymize.py:111 | after the append, the new row's name selects its old rows followed by the new row |
| LinkageProperties.AssignWellFormed | anonymize.py:94-100 | the appended row's codes are canonical, and read back as the indices chosen |
| LinkageProperties.NoTableFirstCodes | anonymize.py:75-77 | with no link file, the folder gets patient index 1 and scan index 1, and the table is the one new row |
| LinkageProperties.LinkedRowWellFormed | anonymize.py:94-100 | every row the linkage appends has canonical codes |
| LinkageProperties.LinkBranch | anonymize.py:81-93 | (helper) with a link file, the known-name branch runs exactly when the resolved name is in the table |
| LinkageProperties.KnownIndicesOk | anonymize.py:81-90 | a successful known branch found the folder new, one distinct patient code that parses and a highest scan index, and chose that patient index and the next scan index |
| LinkageProperties.SingleSetNonEmpty | anonymize.py:86 | (helper) a column whose set has one element is not empty, so `pt_code[0]` exists |
| LinkageProperties.LinkKnownOk | anonymize.py:81-100 | the same checks for the known branch, which appends the row of the indices it chose |
| LinkageProperties.KnownCodeIsFirst | anonymize.py:85-94 | in a table of canonical codes, the known patient's code is the first code stored for the name, and the name's codes form a one-element set |
| LinkageProperties.RowsShareFirstCode | anonymize.py:86 | when the name's codes form a one-element set, every row of the name carries the first one |
| LinkageProperties.KnownKeepsCode | anonymize.py:85-87 | in a table of canonical codes, a known patient gets the patient code of every one of its rows |
| LinkageProperties.KnownPatientKeepsCode | anonymize.py:81-87 | the same for the whole step: a returning patient keeps its code |
| LinkageProperties.KnownNextScan | anonymize.py:89-90 | a known patient's new scan index exceeds every scan index stored for it, by one over the highest |
| LinkageProperties.KnownPatientNextScan | anonymize.py:89-90 | the same for the whole step; the new scan code also differs from every stored one of the patient |
| LinkageProperties.ScansOfName | anonymize.py:89-90 | the name's highest scan index is stored in one of its rows and bounds the scan indices of all of them |
| LinkageProperties.NewReadIndices | anonymize.py:91-92 | (helper) a successful new-patient branch read an index from every stored patient code |
| LinkageProperties.NewAssigned | anonymize.py:91-100 | (helper) when the highest stored patient index is m, the new-patient branch appends the row of patient m + 1, scan 1 |
| LinkageProperties.LinkNewOk | anonymize.py:91-100 | a successful new-patient branch appends the row of one more than the highest stored patient index, scan 1 |
| LinkageProperties.NewFreshCode | anonymize.py:91-93 | a new patient gets scan index 1 and a patient index above every stored one |
| LinkageProperties.NewPatientFreshCode | anonymize.py:91-93 | the same for the whole step; the new patient code differs from every stored one |
| LinkageProperties.AppendKeepsCodePerName | anonymize.py:111 | appending a row that agrees with the name's code keeps one code per name |
| LinkageProperties.AppendKeepsNamePerCode | anonymize.py:111 | appending a row that agrees with the code's name keeps one name per code |
| LinkageProperties.AppendKeepsUniqueScanCodes | anonymize.py:111 | appending a fresh scan code keeps scan codes unique |
| LinkageProperties.AppendKeepsWellFormed | anonymize.py:111 | appending a canonical row keeps every code canonical |
| LinkageProperties.SameScanCode | anonymize.py:95 | two canonical rows with the same scan code have the same patient code and scan index |
| LinkageProperties.KnownScanCodeFresh | anonymize.py:81-95 | for a known patient, the reused code belongs to no other name and the new scan code is new to the table |
| LinkageProperties.NewScanCodeFresh | anonymize.py:91-95 | for a new patient, the new scan code is new to the table |
| LinkageProperties.LinkPreservesConsistency | anonymize.py:59-111 | a consistent table stays consistent: canonical codes, one code per name, one name per code, unique scan codes |
| LinkageProperties.SecondRunRejected | anonymize.py:83 | running the same folder against the table it produced is rejected as a duplicate folder |
| LinkageProperties.KnownPatientKeepsFoldersUnique | anonymize.py:81-83 | for a known patient, the folder column stays free of repeats |
| LinkageProperties.NewNameSkipsFolderCheck | anonymize.py:81-93 | a folder already in the table is accepted again under a name the table does not know, so the folder appears twice |
| LinkageProperties.NewNameSkipsFolderOf | anonymize.py:81-93 | for any folder, two different real names and a first code of index 1: the second name's run of the same folder succeeds and the folder is then in the table twice |
| LinkageProperties.NewNameLinks | anonymize.py:81-93 | (helper) without an operator, a resolved name that is not in the table takes the new-patient branch |
| LinkageProperties.NameColumnsAppend | anonymize.py:111 | after the append, the name's code columns gain exactly the new row's codes |
| LinkageProperties.HighestIndexAppend | anonymize.py:90-92 | appending an index above the previous maximum makes it the new maximum |
| LinkageProperties.EarlierRowsShareCode | anonymize.py:85-87 | in a table of canonical codes, every stored row of the linked name has the new row's patient code |
| LinkageProperties.NameRowsCarry | anonymize.py:85-87 | when every row of a name carries a code, so does every entry of the name's patient code selection |
| LinkageProperties.KnownScansBelow | anonymize.py:89-90 | the known branch's new scan index lies above the highest stored one |
| LinkageProperties.NewScansNone | anonymize.py:91-93 | in the new-patient branch the name has no stored scans, and the scan index is 1 |
| LinkageProperties.EarlierScans | anonymize.py:89-93 | every successful step leaves the new scan index above all stored scans of the name |
| LinkageProperties.LinkKnownFromCodes | anonymize.py:83-90 | when the folder is new, the name's rows share one parseable code, and its highest scan index is s, the known branch assigns that code and scan s + 1 |
| LinkageProperties.KnownIndicesOf | anonymize.py:83-90 | (helper) when the folder is new, the name's codes form a one-element set whose first code reads p and the highest scan index is s, the known branch chooses p and s + 1 |
| LinkageProperties.ReadIndicesOf | anonymize.py:87-90 | (helper) a first code of index p and a highest scan index s give p and s + 1 |
| LinkageProperties.LinkKnownOfIndices | anonymize.py:83-100 | (helper) the known branch appends the row of the indices it chose |
| LinkageProperties.SingleValueSet | anonymize.py:86 | a non-empty column holding only c has the set {c}, of size one, and c first |
| LinkageProperties.AllEqualAppend | anonymize.py:111 | (helper) appending c to a column holding only c keeps it holding only c |
| LinkageProperties.SharedCodeAfterAppend | anonymize.py:111 | after the append, the name's patient column is non-empty and holds only the new row's code |
| LinkageProperties.HighestScanAfterAppend | anonymize.py:89-111 | after the append, the name's highest scan index is the new row's |
| LinkageProperties.KnownAfterAppend | anonymize.py:83-111 | after the append, the name is known and its next folder gets the same patient code and the next scan index |
| LinkageProperties.ReprocessSamePatient | anonymize.py:81-111 | the next folder of the same patient, run against the grown table, keeps the patient code and gets the following scan code |
| LinkageProperties.KnownFolderRejected | anonymize.py:81-83 | for every table, a known name whose folder is already recorded gives `DuplicateFolder` |
| LinkageProperties.ConflictingCodesRejected | anonymize.py:81-86 | for every table, a known name with a new folder and two rows of different patient codes gives `CorruptLinkTable` with the name's codes |
| LinkageProperties.TwoValuesSet | anonymize.py:86 | (helper) two different codes in a column make a set of more than one element |
| LinkageProperties.KnownIndicesCorrupt | anonymize.py:83-86 | (helper) the known branch with a new folder and several distinct codes gives `CorruptLinkTable` |
| LinkageProperties.UnreadableCodeRejected | anonymize.py:81-87 | for every table, a known name with a new folder whose shared code int() cannot read gives `MalformedCode` of that code |
| LinkageProperties.KnownIndicesUnreadable | anonymize.py:83-87 | (helper) the known branch with one distinct, unreadable code gives `MalformedCode` |
| LinkageProperties.EmptyTableRejected | anonymize.py:80-92 | a link file with no rows gives `EmptyLinkTable` for every resolved name |
| LinkageProperties.HasScanAppend | anonymize.py:111 | (helper) a stored scan stays stored after the append |
| LinkageProperties.AppendKeepsDenseScans | anonymize.py:111 | appending scan n of a code whose scans 1 to n - 1 are stored keeps every code's scans gap-free from 1 |
| LinkageProperties.LinkPreservesDenseScans | anonymize.py:75-111 | every successful step keeps each patient code's scan indices gap-free from 1: a new patient gets scan 1, a known one max + 1 |
| LinkageProperties.FirstIndices | anonymize.py:87-90 | "P0001" and "P0001_01" read back as index 1 |
| LinkageProperties.FirstFolder | anonymize.py:75-100 | the first folder with no link file becomes P0001 / P0001_01 |
| LinkageProperties.SecondFolderSamePatient | anonymize.py:81-100 | a second folder of the same patient becomes P0001 / P0001_02 |
| LinkageProperties.SecondFolderOf | anonymize.py:81-100 | the same for any two different folders and any real name |
| LinkageProperties.KnownNameLinks | anonymize.py:81-90 | (helper) a resolved name that is in the table takes the known-patient branch, whatever the operator answered |
| LinkageProperties.SecondAssigned | anonymize.py:94-100 | patient 1, scan 2 is the row "P0001" / "P0001_02" appended to the one-row table |
| LinkageProperties.SecondFolderKnown | anonymize.py:83-90 | the known branch on a one-row table of index-1 codes assigns patient 1, scan 2 |
| LinkageProperties.ReprocessedFolderRejected | anonymize.py:83 | the same folder under the same name is rejected |
| LinkageProperties.NonCanonicalCodeReformatted | anonymize.py:85-94 | a stored short code "P1" is re-formatted to "P0001", so one name ends up with two spellings of its code |
| LinkageProperties.NonCanonicalOf | anonymize.py:85-94 | the same for any two different folders and any real name |
| LinkageProperties.ShortCodeIndices | anonymize.py:87-90 | "P1" and "P1_01" read back as index 1 |
| ImagePlane.Value | anonymize.py:298 | a rounded cosine stands for -1, 0 or 1, and only the zero cosine for 0 |
| ImagePlane.Cross | anonymize.py:299 | definition: np.cross of two rounded triples; its symmetries are `ImagePlane.CrossSwapped`, `CrossReversed`, `CrossAlongAxes` |
| ImagePlane.PlaneOf | anonymize.py:300-306 | definition: the if-chain on the absolute components, x first; proved by `ImagePlane.PlaneOfAxisNormal`, `OppositeNormalsSamePlane` |
| ImagePlane.FilePlane | anonymize.py:294-306 | definition: the plane of the cross product; proved by `ImagePlane.AxisAlignedPlane`, `PlaneIgnoresDirection`, `ParallelHasNoPlane` |
| ImagePlane.TimesIsProduct | anonymize.py:299 | the case-wise product of rounded cosines is integer multiplication |
| ImagePlane.TimesSigns | anonymize.py:299 | the product commutes, and flipping either factor negates it |
| ImagePlane.Abs | anonymize.py:300 | abs returns the number or its negation, never negative |
| ImagePlane.CrossSwapped | anonymize.py:299 | swapping the two factors of np.cross reverses the normal |
| ImagePlane.CrossReversed | anonymize.py:299 | reversing the first direction reverses the normal |
| ImagePlane.OppositeNormalsSamePlane | anonymize.py:300-306 | a normal and its reverse give the same plane |
| ImagePlane.PlaneIgnoresDirection | anonymize.py:294-306 | swapping rows and columns, or reversing either direction, does not change the plane |
| ImagePlane.ParallelHasNoPlane | anonymize.py:299-306 | parallel or opposite directions give a zero normal and no plane |
| ImagePlane.CrossAlongAxes | anonymize.py:299 | the right-hand rule for axis directions: the normal lies along the third axis, with the sign of the cyclic order |
| ImagePlane.PlaneOfAxisNormal | anonymize.py:300-306 | a normal of magnitude 1 along an axis gives that axis's plane: x sagittal, y coronal, z axial |
| ImagePlane.AxisAlignedPlane | anonymize.py:294-306 | rows and columns along two different axes, in either sense, give the plane perpendicular to the third axis |
| ImagePlane.AxialExample | anonymize.py:294-306 | rows along x and columns along y give an axial image |
| ImagePlane.ObliqueFirstAxisWins | anonymize.py:299-306 | an oblique normal (1, -1, 0) is reported as sagittal, because x is checked first |
| SeriesFolder.Replace | anonymize.py:217 | replacing c removes c when the replacement lacks it, leaves a string without c unchanged, and adds only the replacement's characters |
| SeriesFolder.SeriesFolderName | anonymize.py:217 | the folder name contains none of ' ', '*', ':', '/', '?' |
| SeriesFolder.ReplaceConcat | anonymize.py:217 | replacing in a concatenation replaces in each part |
| SeriesFolder.ReplaceOne | anonymize.py:217 | replacing in one character gives the replacement or the character |
| SeriesFolder.ChainOnImage | anonymize.py:217 | the five replacements turn each single character into its image |
| SeriesFolder.ChainIsCharMap | anonymize.py:217 | the chain of replacements equals replacing each character independently: the order of the chain does not matter |
| SeriesFolder.CleanUnchanged | anonymize.py:217 | a description without those characters is its own folder name |
| SeriesFolder.Idempotent | anonymize.py:217 | sanitising a folder name again changes nothing |
| SeriesFolder.FolderNameLength | anonymize.py:217 | the name is longer than the description by three characters per '*' and by nothing else |
| SeriesFolder.SanitizeConcat | anonymize.py:217 | the per-character reference distributes over concatenation |
| SeriesFolder.SpaceAndColonCollide | anonymize.py:217 | descriptions that differ only in a space against a colon get the same folder |
| SeriesFolder.MissingDescriptionFolder | anonymize.py:209-217 | a series without a description is exported to "N-A" |
| SeriesFolder.NotApplicableFolder | anonymize.py:217 | "N/A" becomes "N-A" |

## Left out

- **I/O and the filesystem:**
  - reading and writing the CSV link file. The table is read from `csv_link_file` (line 80) but written to `'../output/' + csv_link_file` (line 116), and with the default `csv_link_file=None` every call starts from no table. `LinkageProperties.SecondRunRejected`, `LinkageProperties.ReprocessSamePatient` and the cross-run invariants (`LinkPreservesConsistency`, `LinkPreservesDenseScans`) assume the caller passes the written table back in;
  - `os.path.isfile` (a missing file is the `None` table);
  - the folder `assert`s on lines 50 and 57;
  - the `rename` calls on lines 105-107;
  - printing.
- **The operator prompt:** `input()` becomes the `Option<string>` parameter `operatorName`. `None` stands for the operator not being consulted, which the model reports as `AmbiguousIdentity`.
- **Not part of this model:**
  - `record_dicoms`, except for lines 209-210 and 217: pydicom reading, de-identification, hashing the folder name, and JPEG export;
  - the commented-out `record_dicom`.
- **Other columns:** the dictionary carries more fields than `folder_gt`, `PatientName`, `anonymized_pt` and `anonymized_scanfolder`. The others pass through the append untouched and are not modelled. The same goes for the `';'.join` of list-valued fields.
- Codes.ParseNat (and so Codes.PatientIndex, Codes.ScanIndex, Linkage.ParseAll): `int()` is modelled on strings of ASCII decimal digits. Python also accepts a sign, surrounding whitespace, `_` digit separators and non-ASCII decimal digits such as Arabic-Indic ones. Codes written that way count as `MalformedCode` here.
- ImagePlane.FilePlane: works on already-rounded cosines (-1, 0 or 1):
  - `round()` on floats is not modelled;
  - a direction cosine lies in [-1, 1], so its rounding is one of those three values;
  - `np.cross` on other integers is not modelled.
- Linkage.Link: the table is modelled as the strings that were written, without pandas' type inference on reading. `pd.read_csv` turns a column whose values are all digits (folder names such as "12345" or "0042", or names made only of digits) into integers. The `in set(...)` tests of lines 81 and 83 then compare a string against integers and never succeed, so for such tables the folder check and the known-name branch do not fire in the program, while `LinkageProperties.SecondRunRejected` and the one-code-per-name results hold in the model. By default `pd.read_csv` also reads an empty field and strings such as "NA", "NaN" and "null" as NaN. An empty `PatientName` or a folder named "NA" is then never matched on lines 81 and 83 either, so a patient with an empty name gets a fresh patient code on every run, and a folder named "NA" is never reported as already processed.
- Linkage.Link: a link file holding only its header row reads as a table with no rows. The model gives that table `EmptyLinkTable`, the error of `max([])` in the new-patient branch. A file that pandas cannot read at all is not modelled.
- **Where the code does something a user may not expect, the model follows the code:**
  - The folder check on line 83 runs only for a known patient name. A folder already in the table is appended again under a new name: `LinkageProperties.NewNameSkipsFolderCheck`.
  - A known patient's code is re-formatted from its index, not copied. So a stored code not written as `P%04d` (such as "P1") yields a second spelling of the same patient: `LinkageProperties.NonCanonicalCodeReformatted`. The consistency results therefore assume canonical codes (`WellFormed`).
  - An existing link file with no rows makes `max([])` raise ValueError in the new-patient branch: `EmptyLinkTable` (`LinkageProperties.EmptyTableRejected`).

=== FILE: codes.dfy ===
/**
 * The anonymized codes and the string operations the linkage step reads them
 * back with: a patient code is 'P' followed by the patient index formatted
 * with "%04d", a scan code is a patient code, '_' and the scan index
 * formatted with "%02d". They are read back with Python's str.strip('P'),
 * str.split('_') and int().
 */
module Codes {
  import opened Wrappers

  predicate IsDigit(c: char) {
    '0' <= c <= '9'
  }

  predicate AllDigits(s: string) {
    forall i :: 0 <= i < |s| ==> IsDigit(s[i])
  }

  function DigitChar(d: nat): (c: char)
    requires d < 10
    ensures IsDigit(c) && (c as int) - ('0' as int) == d
  {
    (('0' as int) + d) as char
  }

  function DigitValue(c: char): nat
    requires IsDigit(c)
  {
    (c as int) - ('0' as int)
  }

  /** "%d" of a non-negative integer: its decimal digits, no padding. */
  function Decimal(n: nat): string
    decreases n
  {
    if n < 10 then [DigitChar(n)] else Decimal(n / 10) + [DigitChar(n % 10)]
  }

  /** The number a string of decimal digits denotes; leading zeros are allowed. */
  function Value(s: string): nat
    requires AllDigits(s)
    decreases |s|
  {
    if |s| == 0 then 0 else 10 * Value(s[..|s| - 1]) + DigitValue(s[|s| - 1])
  }

  function Zeros(k: nat): string {
    seq(k, _ => '0')
  }

  /** "%0<width>d": the decimal digits of n, left-padded with '0' up to width; never truncated. */
  function ZeroPad(n: nat, width: nat): string {
    var d := Decimal(n);
    if |d| >= width then d else Zeros(width - |d|) + d
  }

  /** Python's int() on a string, for strings of decimal digits; anything else is a ValueError (None). */
  function ParseNat(s: string): Option<nat> {
    if |s| > 0 && AllDigits(s) then Some(Value(s)) else None
  }

  /** str.lstrip(c) */
  function StripLeft(s: string, c: char): (r: string)
    decreases |s|
  {
    if |s| > 0 && s[0] == c then StripLeft(s[1..], c) else s
  }

  /** str.rstrip(c) */
  function StripRight(s: string, c: char): (r: string)
    decreases |s|
  {
    if |s| > 0 && s[|s| - 1] == c then StripRight(s[..|s| - 1], c) else s
  }

  /** str.strip(c): drop every leading and every trailing c. */
  function Strip(s: string, c: char): string {
    StripRight(StripLeft(s, c), c)
  }

  /** str.split(sep) for a one-character separator: the fields between separators, always at least one. */
  function Split(s: string, sep: char): (parts: seq<string>)
    ensures |parts| >= 1
    decreases |s|
  {
    if |s| == 0 then [""]
    else
      var rest := Split(s[1..], sep);
      if s[0] == sep then [""] + rest else [[s[0]] + rest[0]] + rest[1..]
  }

  /** The patient code 'P' + "%04d" % index. */
  function PatientCode(index: nat): string {
    "P" + ZeroPad(index, 4)
  }

  /** The scan code ptCode + '_' + "%02d" % index. */
  function ScanCode(ptCode: string, index: nat): string {
    ptCode + "_" + ZeroPad(index, 2)
  }

  /** int(code.strip('P')): the patient index read back from a patient code. */
  function PatientIndex(code: string): Option<nat> {
    ParseNat(Strip(code, 'P'))
  }

  /** int(code.strip('P').split('_')[1]): the scan index read back from a scan code; a missing field is an IndexError (None). */
  function ScanIndex(code: string): Option<nat> {
    var parts := Split(Strip(code, 'P'), '_');
    if |parts| < 2 then None else ParseNat(parts[1])
  }

  // ---------------------------------------------------------------------
  // Decimal numerals

  /** "%d" writes at least one character, all of them digits, and no leading zero unless it writes "0" alone. */
  lemma {:induction false} DecimalDigits(n: nat)
    ensures |Decimal(n)| >= 1 && AllDigits(Decimal(n))
    ensures |Decimal(n)| > 1 ==> Decimal(n)[0] != '0'
    decreases n
  {
    if n >= 10 {
      DecimalDigits(n / 10);
      assert Decimal(n)[0] == Decimal(n / 10)[0];
    }
  }

  /** A digit string without a leading zero (other than "0" itself) is the "%d" of its value: nothing else can be Decimal(n). */
  lemma {:induction false} DecimalCanonical(s: string, n: nat)
    requires |s| >= 1 && AllDigits(s) && Value(s) == n
    requires |s| > 1 ==> s[0] != '0'
    ensures s == Decimal(n)
    decreases |s|
  {
    if |s| > 1 {
      var p := s[..|s| - 1];
      assert AllDigits(p);
      assert p[0] == s[0];
      DecimalCanonical(p, Value(p));
      assert n / 10 == Value(p) && n % 10 == DigitValue(s[|s| - 1]);
      assert s == p + [s[|s| - 1]];
    }
  }

  lemma ZerosDigits(k: nat)
    ensures |Zeros(k)| == k && AllDigits(Zeros(k))
  {
  }

  /** "%0<width>d" writes only digits and is never truncated: it is as wide as the width or the number, whichever is wider. */
  lemma ZeroPadDigits(n: nat, width: nat)
    ensures AllDigits(ZeroPad(n, width)) && |ZeroPad(n, width)| >= 1
    ensures |ZeroPad(n, width)| == if |Decimal(n)| >= width then |Decimal(n)| else width
  {
    DecimalDigits(n);
    ZerosDigits(if |Decimal(n)| >= width then 0 else width - |Decimal(n)|);
  }

  lemma {:induction false} ValueOfDecimal(n: nat)
    ensures AllDigits(Decimal(n)) && Value(Decimal(n)) == n
    decreases n
  {
    DecimalDigits(n);
    if n >= 10 {
      var d := Decimal(n / 10);
      var s := d + [DigitChar(n % 10)];
      assert s[..|s| - 1] == d;
      ValueOfDecimal(n / 10);
    }
  }

  lemma {:induction false} ValueOfZeros(k: nat)
    ensures Value(Zeros(k)) == 0
  {
    if k > 0 {
      assert Zeros(k)[..k - 1] == Zeros(k - 1);
      ValueOfZeros(k - 1);
    }
  }

  /** Leading zeros do not change the number a digit string denotes. */
  lemma {:induction false} ValueLeadingZeros(k: nat, s: string)
    requires AllDigits(s)
    ensures AllDigits(Zeros(k) + s) && Value(Zeros(k) + s) == Value(s)
    decreases |s|
  {
    var z := Zeros(k) + s;
    if |s| == 0 {
      assert z == Zeros(k);
      ValueOfZeros(k);
    } else {
      var init := s[..|s| - 1];
      assert z[..|z| - 1] == Zeros(k) + init;
      ValueLeadingZeros(k, init);
    }
  }

  /** Reading "%0<width>d" % n back with int() gives n, whatever the width. */
  lemma ValueOfZeroPad(n: nat, width: nat)
    ensures AllDigits(ZeroPad(n, width)) && Value(ZeroPad(n, width)) == n
  {
    ZeroPadDigits(n, width);
    ValueOfDecimal(n);
    var d := Decimal(n);
    if |d| < width {
      ValueLeadingZeros(width - |d|, d);
    }
  }

  lemma StripDigits(s: string, c: char)
    requires |s| > 0 && AllDigits(s) && !IsDigit(c)
    ensures Strip([c] + s, c) == s
  {
    assert ([c] + s)[1..] == s;
    assert s[0] != c && s[|s| - 1] != c;
    assert StripLeft([c] + s, c) == StripLeft(s, c) == s;
  }

  lemma {:induction false} SplitNoSeparator(s: string, sep: char)
    requires sep !in s
    ensures Split(s, sep) == [s]
    decreases |s|
  {
    if |s| > 0 {
      SplitNoSeparator(s[1..], sep);
      assert [s[0]] + s[1..] == s;
    }
  }

  /** Splitting at the first separator. */
  lemma {:induction false} SplitFirst(a: string, sep: char, b: string)
    requires sep !in a
    ensures Split(a + [sep] + b, sep) == [a] + Split(b, sep)
    decreases |a|
  {
    var s := a + [sep] + b;
    if |a| == 0 {
      assert s[1..] == b;
    } else {
      assert s[1..] == a[1..] + [sep] + b;
      SplitFirst(a[1..], sep, b);
      assert [a[0]] + a[1..] == a;
    }
  }

  // ---------------------------------------------------------------------
  // Round trips

  /** int(('P' + "%04d" % p).strip('P')) == p */
  lemma PatientCodeRoundTrip(p: nat)
    ensures PatientIndex(PatientCode(p)) == Some(p)
  {
    ZeroPadDigits(p, 4);
    StripDigits(ZeroPad(p, 4), 'P');
    ValueOfZeroPad(p, 4);
  }

  /** A scan code made from a patient code splits, after strip('P'), into the two zero-padded indices. */
  lemma ScanCodeFields(p: nat, m: nat)
    ensures Split(Strip(ScanCode(PatientCode(p), m), 'P'), '_') == [ZeroPad(p, 4), ZeroPad(m, 2)]
  {
    var a, b := ZeroPad(p, 4), ZeroPad(m, 2);
    ZeroPadDigits(p, 4);
    ZeroPadDigits(m, 2);
    assert ScanCode(PatientCode(p), m) == [('P')] + (a + "_" + b);
    StripDigitFields(a, b);
    NoSeparatorInDigits(a);
    NoSeparatorInDigits(b);
    SplitFirst(a, '_', b);
    SplitNoSeparator(b, '_');
  }

  /** strip('P') removes just the leading 'P' of a code whose body starts and ends with a digit. */
  lemma StripDigitFields(a: string, b: string)
    requires |a| > 0 && |b| > 0 && AllDigits(a) && AllDigits(b)
    ensures Strip([('P')] + (a + "_" + b), 'P') == a + "_" + b
  {
    var body := a + "_" + b;
    assert body[0] == a[0] && body[|body| - 1] == b[|b| - 1];
    assert IsDigit(a[0]) && IsDigit(b[|b| - 1]);
    assert ([('P')] + body)[1..] == body;
    assert StripLeft([('P')] + body, 'P') == StripLeft(body, 'P') == body;
  }

  lemma NoSeparatorInDigits(a: string)
    requires AllDigits(a)
    ensures '_' !in a
  {
    forall i | 0 <= i < |a| ensures a[i] != '_' { assert IsDigit(a[i]); }
  }

  /** int((ptCode + '_' + "%02d" % m).strip('P').split('_')[1]) == m for ptCode = 'P' + "%04d" % p. */
  lemma ScanCodeRoundTrip(p: nat, m: nat)
    ensures ScanIndex(ScanCode(PatientCode(p), m)) == Some(m)
  {
    ScanCodeFields(p, m);
    ValueOfZeroPad(m, 2);
    ZeroPadDigits(m, 2);
  }

  /** Every scan code begins with its patient code followed by '_'. */
  lemma ScanCodeExtendsPatientCode(ptCode: string, m: nat)
    ensures |ScanCode(ptCode, m)| > |ptCode| + 1
    ensures ScanCode(ptCode, m)[..|ptCode| + 1] == ptCode + "_"
  {
  }

  /** Distinct patient indices give distinct patient codes. */
  lemma PatientCodeInjective(p: nat, q: nat)
    requires PatientCode(p) == PatientCode(q)
    ensures p == q
  {
    PatientCodeRoundTrip(p);
    PatientCodeRoundTrip(q);
  }

  /** A scan code determines both the patient index and the scan index it was made from. */
  lemma ScanCodeInjective(p: nat, m: nat, q: nat, k: nat)
    requires ScanCode(PatientCode(p), m) == ScanCode(PatientCode(q), k)
    ensures p == q && m == k
  {
    ScanCodeFields(p, m);
    ScanCodeFields(q, k);
    ValueOfZeroPad(p, 4);
    ValueOfZeroPad(q, 4);
    ValueOfZeroPad(m, 2);
    ValueOfZeroPad(k, 2);
  }

  /** The first codes: patient 1, scan 1, and that patient's second scan. */
  lemma FirstCodes()
    ensures PatientCode(1) == "P0001" && ScanCode(PatientCode(1), 1) == "P0001_01"
    ensures ScanCode(PatientCode(1), 2) == "P0001_02"
  {
    assert Decimal(1) == "1" && Decimal(2) == "2";
    assert Zeros(3) == "000" && Zeros(1) == "0";
  }
}

=== FILE: image_plane.dfy ===
/**
 * The anatomical plane of an image, read off the two direction-cosine
 * triples of its DICOM Image Orientation (Patient) attribute: the first
 * triple is the direction of the image rows, the second that of the
 * columns, both in the patient's x (right to left), y (anterior to
 * posterior) and z (feet to head) axes. Each cosine is rounded to the
 * nearest integer first, so it is -1, 0 or 1. The normal of the image is
 * the cross product of the two rounded triples; the image is sagittal,
 * coronal or axial when that normal lies along x, y or z.
 */
module ImagePlane {
  import opened Wrappers

  /** A direction cosine rounded to the nearest integer: -1, 0 or 1. */
  datatype Rounded = Minus | Zero | Plus

  /** The integer a rounded cosine stands for. */
  function Value(c: Rounded): (v: int)
    ensures -1 <= v <= 1
    ensures (v == 0) == (c == Zero)
  {
    match c
    case Minus => -1
    case Zero => 0
    case Plus => 1
  }

  /** The opposite cosine. */
  function Flip(c: Rounded): (f: Rounded)
    ensures Value(f) == -Value(c)
  {
    match c
    case Minus => Plus
    case Zero => Zero
    case Plus => Minus
  }

  datatype Direction = Direction(x: Rounded, y: Rounded, z: Rounded)

  datatype Normal = Normal(x: int, y: int, z: int)

  datatype Plane = Sagittal | Coronal | Axial

  /** The product of two rounded cosines, by cases on their signs. */
  function Times(a: Rounded, b: Rounded): int {
    if a == Zero || b == Zero then 0 else if a == b then 1 else -1
  }

  /** Times is integer multiplication on -1, 0 and 1. */
  lemma TimesIsProduct(a: Rounded, b: Rounded)
    ensures Times(a, b) == Value(a) * Value(b)
  {
  }

  /** Times commutes, and reversing either factor reverses the product. */
  lemma TimesSigns(a: Rounded, b: Rounded)
    ensures Times(a, b) == Times(b, a)
    ensures Times(Flip(a), b) == -Times(a, b) && Times(a, Flip(b)) == -Times(a, b)
  {
  }

  /** numpy.cross of two rounded triples. */
  function Cross(a: Direction, b: Direction): Normal {
    Normal(Times(a.y, b.z) - Times(a.z, b.y),
           Times(a.z, b.x) - Times(a.x, b.z),
           Times(a.x, b.y) - Times(a.y, b.x))
  }

  function Abs(n: int): (r: nat)
    ensures r == n || r == -n
  {
    if n < 0 then -n else n
  }

  /**
   * The plane of an image: the first axis, in the order x, y, z, along
   * which the normal has magnitude 1; None when no axis does.
   */
  function FilePlane(row: Direction, col: Direction): Option<Plane> {
    PlaneOf(Cross(row, col))
  }

  /** The if-chain on the absolute components of the normal. */
  function PlaneOf(n: Normal): Option<Plane> {
    if Abs(n.x) == 1 then Some(Sagittal)
    else if Abs(n.y) == 1 then Some(Coronal)
    else if Abs(n.z) == 1 then Some(Axial)
    else None
  }

  // ---------------------------------------------------------------------
  // Reversed and swapped directions

  function Neg(a: Direction): Direction {
    Direction(Flip(a.x), Flip(a.y), Flip(a.z))
  }

  function NegNormal(n: Normal): Normal {
    Normal(-n.x, -n.y, -n.z)
  }

  /** Swapping the factors reverses the normal. */
  lemma CrossSwapped(a: Direction, b: Direction)
    ensures Cross(b, a) == NegNormal(Cross(a, b))
  {
    TimesSigns(a.y, b.z); TimesSigns(a.z, b.y);
    TimesSigns(a.z, b.x); TimesSigns(a.x, b.z);
    TimesSigns(a.x, b.y); TimesSigns(a.y, b.x);
  }

  /** Reversing the first factor reverses the normal. */
  lemma CrossReversed(a: Direction, b: Direction)
    ensures Cross(Neg(a), b) == NegNormal(Cross(a, b))
  {
    var na := Neg(a);
    assert na.x == Flip(a.x) && na.y == Flip(a.y) && na.z == Flip(a.z);
    TimesSigns(a.y, b.z); TimesSigns(a.z, b.y);
    TimesSigns(a.z, b.x); TimesSigns(a.x, b.z);
    TimesSigns(a.x, b.y); TimesSigns(a.y, b.x);
  }

  /** Opposite normals give the same plane. */
  lemma OppositeNormalsSamePlane(n: Normal)
    ensures PlaneOf(NegNormal(n)) == PlaneOf(n)
  {
    assert Abs(-n.x) == Abs(n.x) && Abs(-n.y) == Abs(n.y) && Abs(-n.z) == Abs(n.z);
  }

  /** Swapping rows and columns, or reversing either direction, keeps the plane. */
  lemma {:induction false} PlaneIgnoresDirection(row: Direction, col: Direction)
    ensures FilePlane(col, row) == FilePlane(row, col)
    ensures FilePlane(Neg(row), col) == FilePlane(row, col)
    ensures FilePlane(row, Neg(col)) == FilePlane(row, col)
  {
    var n := Cross(row, col);
    OppositeNormalsSamePlane(n);
    CrossSwapped(row, col);
    CrossReversed(row, col);
    // reversing the columns: swap, reverse the first factor, swap back
    var m := Cross(col, row);
    CrossReversed(col, row);
    CrossSwapped(Neg(col), row);
    assert Cross(row, Neg(col)) == NegNormal(NegNormal(m));
    assert NegNormal(NegNormal(m)) == m;
  }

  /** Parallel or opposite directions span no plane: the normal is zero and there is no answer. */
  lemma ParallelHasNoPlane(v: Direction)
    ensures Cross(v, v) == Normal(0, 0, 0) && Cross(v, Neg(v)) == Normal(0, 0, 0)
    ensures FilePlane(v, v) == None && FilePlane(v, Neg(v)) == None
  {
    TimesSigns(v.x, v.y); TimesSigns(v.y, v.z); TimesSigns(v.z, v.x);
    var n := Neg(v);
    assert n.x == Flip(v.x) && n.y == Flip(v.y) && n.z == Flip(v.z);
    assert Cross(v, v) == Normal(0, 0, 0);
    assert Cross(v, n) == Normal(0, 0, 0);
  }

  // ---------------------------------------------------------------------
  // The axis-aligned orientations

  datatype Axis = X | Y | Z

  /** The direction with cosine s along an axis and 0 along the others. */
  function Along(a: Axis, s: Rounded): Direction {
    match a
    case X => Direction(s, Zero, Zero)
    case Y => Direction(Zero, s, Zero)
    case Z => Direction(Zero, Zero, s)
  }

  /** The normal with component k along an axis and 0 along the others. */
  function NormalAlong(a: Axis, k: int): Normal {
    match a
    case X => Normal(k, 0, 0)
    case Y => Normal(0, k, 0)
    case Z => Normal(0, 0, k)
  }

  /** The anatomical plane perpendicular to an axis. */
  function NormalPlane(a: Axis): Plane {
    match a
    case X => Sagittal
    case Y => Coronal
    case Z => Axial
  }

  /** The axis perpendicular to two different axes. */
  function ThirdAxis(a: Axis, b: Axis): (c: Axis)
    requires a != b
    ensures c != a && c != b
  {
    if a != X && b != X then X else if a != Y && b != Y then Y else Z
  }

  /** Whether b follows a in the cyclic order x, y, z. */
  predicate Cyclic(a: Axis, b: Axis) {
    (a == X && b == Y) || (a == Y && b == Z) || (a == Z && b == X)
  }

  /**
   * The right-hand rule: the cross product of directions along two
   * different axes lies along the third axis, with the product of the two
   * cosines as its component when the axes are in cyclic order and its
   * negation otherwise.
   */
  lemma CrossAlongAxes(a: Axis, s: Rounded, b: Axis, t: Rounded)
    requires a != b
    ensures Cross(Along(a, s), Along(b, t)) ==
      NormalAlong(ThirdAxis(a, b), if Cyclic(a, b) then Times(s, t) else -Times(s, t))
  {
    assert Times(Zero, Zero) == Times(Zero, s) == Times(s, Zero) == Times(Zero, t) == Times(t, Zero) == 0;
    TimesSigns(s, t);
  }

  /** A normal along an axis with a component of magnitude 1 gives the plane perpendicular to that axis. */
  lemma PlaneOfAxisNormal(c: Axis, k: int)
    requires Abs(k) == 1
    ensures PlaneOf(NormalAlong(c, k)) == Some(NormalPlane(c))
  {
  }

  /**
   * An image whose rows and columns run along two different patient axes,
   * either way, lies in the plane perpendicular to the third axis.
   */
  lemma {:induction false} AxisAlignedPlane(a: Axis, s: Rounded, b: Axis, t: Rounded)
    requires a != b && s != Zero && t != Zero
    ensures FilePlane(Along(a, s), Along(b, t)) == Some(NormalPlane(ThirdAxis(a, b)))
  {
    CrossAlongAxes(a, s, b, t);
    assert Abs(Times(s, t)) == 1 && Abs(-Times(s, t)) == 1;
    PlaneOfAxisNormal(ThirdAxis(a, b), if Cyclic(a, b) then Times(s, t) else -Times(s, t));
  }

  /** Rows along x and columns along y: an axial image. */
  lemma AxialExample()
    ensures FilePlane(Direction(Plus, Zero, Zero), Direction(Zero, Plus, Zero)) == Some(Axial)
  {
    AxisAlignedPlane(X, Plus, Y, Plus);
  }

  /**
   * The checks run in the order x, y, z, and the first axis with a normal
   * component of magnitude 1 wins, even when the normal is oblique: rows
   * along x + y and columns along z give the normal (1, -1, 0), which is
   * reported as sagittal.
   */
  lemma ObliqueFirstAxisWins()
    ensures Cross(Direction(Plus, Plus, Zero), Direction(Zero, Zero, Plus)) == Normal(1, -1, 0)
    ensures FilePlane(Direction(Plus, Plus, Zero), Direction(Zero, Zero, Plus)) == Some(Sagittal)
  {
  }
}

=== FILE: linkage.dfy ===
/**
 * The code-assignment and linkage step of anonymize_folder: resolve the one
 * patient name of a freshly extracted folder, check it against the link
 * table, choose the patient and scan indices, format the two codes and
 * append one row to the table.
 */
module Linkage {
  import opened Wrappers
  import opened Codes

  /** The placeholder the de-identification writes into every person-name field. */
  const ANONYMOUS := "anonymous"

  datatype Error =
    | AmbiguousIdentity(names: seq<string>, folder: string)  // several names and no operator answer
    | EmptyName(folder: string)                              // no name left: the [0] index fails
    | DuplicateFolder(folder: string)                        // folder already in the table
    | CorruptLinkTable(name: string, codes: seq<string>)     // one name, several patient codes
    | MalformedCode(code: string)                            // int() or [1] fails on a stored code
    | EmptyLinkTable                                         // max() of no patient indices

  /** What the linkage reads of the record extracted from one folder. */
  datatype ScanRecord = ScanRecord(folderGt: string, patientNames: seq<string>)

  /** The columns of a link-table row that the linkage reads and writes. */
  datatype Row = Row(folderGt: string, patientName: string, anonymizedPt: string, anonymizedScanfolder: string)

  /** The finished record (the appended row) and the grown table. */
  datatype Linked = Linked(row: Row, table: seq<Row>)

  /** The rows of the table read from the link file; no file reads as no rows. */
  function TableRows(table: Option<seq<Row>>): seq<Row> {
    match table
    case None => []
    case Some(t) => t
  }

  // ---------------------------------------------------------------------
  // Name resolution

  /** list.remove(x): drop the first occurrence of x. */
  function RemoveFirst(s: seq<string>, x: string): (r: seq<string>)
    ensures x in s ==> |r| == |s| - 1
    ensures x !in s ==> r == s
    decreases |s|
  {
    if |s| == 0 then s
    else
      assert s == [s[0]] + s[1..];
      if s[0] == x then s[1..] else [s[0]] + RemoveFirst(s[1..], x)
  }

  /** list.remove drops the first occurrence of x and keeps the order of the rest. */
  lemma {:induction false} RemoveFirstSpec(s: seq<string>, x: string)
    ensures x in s ==> exists k :: (0 <= k < |s| && s[k] == x && (forall i :: 0 <= i < k ==> s[i] != x) &&
                                    RemoveFirst(s, x) == s[..k] + s[k + 1..])
    decreases |s|
  {
    if x in s {
      if s[0] == x {
        assert RemoveFirst(s, x) == s[..0] + s[1..];
      } else {
        var tail := s[1..];
        assert x in tail by { assert s == [s[0]] + tail; }
        RemoveFirstSpec(tail, x);
        var j :| 0 <= j < |tail| && tail[j] == x && (forall i :: 0 <= i < j ==> tail[i] != x) &&
          RemoveFirst(tail, x) == tail[..j] + tail[j + 1..];
        RemoveFirstBehindHead(s, x, j);
        assert s[j + 1] == x;
        forall i | 0 <= i < j + 1 ensures s[i] != x {
          if i > 0 {
            assert s[i] == tail[i - 1];
          }
        }
      }
    }
  }

  /** Where the head of the list is not x, the occurrence removed from the tail is the one removed. */
  lemma RemoveFirstBehindHead(s: seq<string>, x: string, j: nat)
    requires |s| > 0 && s[0] != x && j < |s| - 1
    requires RemoveFirst(s[1..], x) == s[1..][..j] + s[1..][j + 1..]
    ensures RemoveFirst(s, x) == s[..j + 1] + s[j + 2..]
  {
    var tail := s[1..];
    RemoveFirstKeepsHead(s, x);
    assert s[..j + 1] == [s[0]] + tail[..j];
    assert s[j + 2..] == tail[j + 1..];
  }

  lemma RemoveFirstKeepsHead(s: seq<string>, x: string)
    requires |s| > 0 && s[0] != x
    ensures RemoveFirst(s, x) == [s[0]] + RemoveFirst(s[1..], x)
  {
  }

  /**
   * The one patient name of a folder: the placeholder is dropped, a single
   * remaining name is taken, several names need the operator's answer.
   */
  function ResolveName(folder: string, names: seq<string>, operatorName: Option<string>): Result<string, Error> {
    var rest := if ANONYMOUS in names then RemoveFirst(names, ANONYMOUS) else names;
    if |rest| > 1 then
      match operatorName
      case Some(n) => Ok(n)
      case None => Err(AmbiguousIdentity(rest, folder))
    else if |rest| == 0 then Err(EmptyName(folder))
    else Ok(rest[0])
  }

  // ---------------------------------------------------------------------
  // Table queries

  predicate KnownName(t: seq<Row>, name: string) {
    exists i :: 0 <= i < |t| && t[i].patientName == name
  }

  predicate HasFolder(t: seq<Row>, folder: string) {
    exists i :: 0 <= i < |t| && t[i].folderGt == folder
  }

  /** df.loc[df['PatientName'] == name]: the rows of one patient name, in table order. */
  function NameRows(t: seq<Row>, name: string): (rows: seq<Row>)
    ensures forall r :: r in rows <==> r in t && r.patientName == name
    decreases |t|
  {
    if |t| == 0 then []
    else
      var last := t[|t| - 1];
      assert t == t[..|t| - 1] + [last];
      NameRows(t[..|t| - 1], name) + (if last.patientName == name then [last] else [])
  }

  /** The anonymized_pt column. */
  function PtColumn(rows: seq<Row>): seq<string>
    decreases |rows|
  {
    if |rows| == 0 then [] else PtColumn(rows[..|rows| - 1]) + [rows[|rows| - 1].anonymizedPt]
  }

  /** The anonymized_scanfolder column. */
  function ScanColumn(rows: seq<Row>): seq<string>
    decreases |rows|
  {
    if |rows| == 0 then [] else ScanColumn(rows[..|rows| - 1]) + [rows[|rows| - 1].anonymizedScanfolder]
  }

  /** [index(c) for c in codes]: the first code index cannot read is the error. */
  function ParseAll(codes: seq<string>, index: string -> Option<nat>): Result<seq<nat>, Error>
    decreases |codes|
  {
    if |codes| == 0 then Ok([])
    else
      var last := codes[|codes| - 1];
      match ParseAll(codes[..|codes| - 1], index)
      case Err(e) => Err(e)
      case Ok(v) =>
        match index(last)
        case None => Err(MalformedCode(last))
        case Some(k) => Ok(v + [k])
  }

  /** Either every code is read, position by position, or the error names a code that cannot be read. */
  lemma {:induction false} ParseAllSpec(codes: seq<string>, index: string -> Option<nat>)
    ensures var r := ParseAll(codes, index);
      && (r.Ok? ==> |r.value| == |codes| && forall i :: 0 <= i < |codes| ==> index(codes[i]) == Some(r.value[i]))
      && (r.Err? ==> exists i :: 0 <= i < |codes| && index(codes[i]).None? && r.error == MalformedCode(codes[i]))
    decreases |codes|
  {
    if |codes| > 0 {
      var init := codes[..|codes| - 1];
      ParseAllSpec(init, index);
      if ParseAll(init, index).Err? {
        var i :| 0 <= i < |init| && index(init[i]).None? && ParseAll(init, index).error == MalformedCode(init[i]);
        assert codes[i] == init[i];
      }
    }
  }

  /** Once a prefix of the codes holds a malformed one, so do the codes. */
  lemma {:induction false} ParseAllStopsAtError(codes: seq<string>, k: nat, index: string -> Option<nat>)
    requires k <= |codes| && ParseAll(codes[..k], index).Err?
    ensures ParseAll(codes, index) == ParseAll(codes[..k], index)
    decreases |codes| - k
  {
    if k < |codes| {
      assert codes[..k + 1][..k] == codes[..k];
      ParseAllStopsAtError(codes, k + 1, index);
    } else {
      assert codes[..k] == codes;
    }
  }

  /** max() of a non-empty list. */
  function Max(s: seq<nat>): (m: nat)
    requires |s| > 0
    ensures m in s && forall i :: 0 <= i < |s| ==> s[i] <= m
    decreases |s|
  {
    if |s| == 1 then s[0]
    else
      var m := Max(s[..|s| - 1]);
      assert s == s[..|s| - 1] + [s[|s| - 1]];
      if s[|s| - 1] > m then s[|s| - 1] else m
  }

  /** max([index(c) for c in codes]): a malformed code, or no code at all, is an error. */
  function HighestIndex(codes: seq<string>, index: string -> Option<nat>): Result<nat, Error> {
    match ParseAll(codes, index)
    case Err(e) => Err(e)
    case Ok(v) => if |v| == 0 then Err(EmptyLinkTable) else Ok(Max(v))
  }

  /**
   * The highest index is read from one of the codes and bounds all of them;
   * it exists exactly when there is a code and every code can be read.
   */
  lemma HighestIndexSpec(codes: seq<string>, index: string -> Option<nat>)
    ensures var r := HighestIndex(codes, index);
      && (r.Ok? ==> forall k :: 0 <= k < |codes| ==> index(codes[k]).Some? && index(codes[k]).value <= r.value)
      && (r.Ok? ==> exists k :: 0 <= k < |codes| && index(codes[k]) == Some(r.value))
      && (r.Ok? <==> |codes| > 0 && forall k :: 0 <= k < |codes| ==> index(codes[k]).Some?)
      && (r == Err(EmptyLinkTable) <==> |codes| == 0)
  {
    ParseAllSpec(codes, index);
  }

  /** The row the record becomes once its codes are assigned, appended to the table. */
  function Assign(rec: ScanRecord, name: string, ptIdx: nat, scanIdx: nat, t: seq<Row>): Linked {
    var ptCode := PatientCode(ptIdx);
    var row := Row(rec.folderGt, name, ptCode, ScanCode(ptCode, scanIdx));
    Linked(row, t + [row])
  }

  /**
   * The known-patient branch's checks and indices: the patient index its
   * rows carry and one more than its highest scan index.
   */
  function KnownIndices(rec: ScanRecord, name: string, t: seq<Row>): Result<(nat, nat), Error> {
    if HasFolder(t, rec.folderGt) then Err(DuplicateFolder(rec.folderGt))
    else
      var rows := NameRows(t, name);
      var ptCodes := PtColumn(rows);
      if |set c | c in ptCodes| != 1 then Err(CorruptLinkTable(name, ptCodes))
      else ReadIndices(ptCodes, ScanColumn(rows))
  }

  /** The patient index of the first patient code, and one more than the highest scan index. */
  function ReadIndices(ptCodes: seq<string>, scanCodes: seq<string>): Result<(nat, nat), Error>
    requires |ptCodes| > 0
  {
    match PatientIndex(ptCodes[0])
    case None => Err(MalformedCode(ptCodes[0]))
    case Some(p) =>
      match HighestIndex(scanCodes, ScanIndex)
      case Err(e) => Err(e)
      case Ok(m) => Ok((p, m + 1))
  }

  /** The known-patient branch: the patient keeps its code and gets the next scan index. */
  function LinkKnown(rec: ScanRecord, name: string, t: seq<Row>): Result<Linked, Error> {
    match KnownIndices(rec, name, t)
    case Err(e) => Err(e)
    case Ok(idx) => Ok(Assign(rec, name, idx.0, idx.1, t))
  }

  /** The new-patient branch: one more than every stored patient index, first scan. */
  function LinkNew(rec: ScanRecord, name: string, t: seq<Row>): Result<Linked, Error> {
    match HighestIndex(PtColumn(t), PatientIndex)
    case Err(e) => Err(e)
    case Ok(m) => Ok(Assign(rec, name, m + 1, 1, t))
  }

  /** Code assignment for a resolved name; no link file means patient 1, scan 1. */
  function LinkName(rec: ScanRecord, name: string, table: Option<seq<Row>>): Result<Linked, Error> {
    match table
    case None => Ok(Assign(rec, name, 1, 1, []))
    case Some(t) => if KnownName(t, name) then LinkKnown(rec, name, t) else LinkNew(rec, name, t)
  }

  /**
   * The linkage of one folder against the link table (None when there is no
   * link file): the reference the method AnonymizeFolder is proved against.
   */
  function Link(rec: ScanRecord, table: Option<seq<Row>>, operatorName: Option<string>): (r: Result<Linked, Error>)
    ensures r.Ok? ==> r.value.table == TableRows(table) + [r.value.row]
    ensures r.Ok? ==> ResolveName(rec.folderGt, rec.patientNames, operatorName) == Ok(r.value.row.patientName)
    ensures r.Ok? ==> r.value.row.folderGt == rec.folderGt
  {
    match ResolveName(rec.folderGt, rec.patientNames, operatorName)
    case Err(e) => Err(e)
    case Ok(name) => LinkName(rec, name, table)
  }

  // ---------------------------------------------------------------------
  // The imperative step

  /** The max computation over the stored codes, one code at a time. */
  method MaxIndex(codes: seq<string>, index: string -> Option<nat>) returns (r: Result<nat, Error>)
    ensures r == HighestIndex(codes, index)
  {
    var best := 0;
    ghost var vals: seq<nat> := [];
    var i := 0;
    while i < |codes|
      invariant 0 <= i <= |codes|
      invariant ParseAll(codes[..i], index) == Ok(vals)
      invariant i > 0 ==> best == Max(vals)
    {
      assert codes[..i + 1][..i] == codes[..i];
      match index(codes[i])
      case None =>
        ParseAllStopsAtError(codes, i + 1, index);
        return Err(MalformedCode(codes[i]));
      case Some(k) =>
        if i == 0 || k > best {
          best := k;
        }
        vals := vals + [k];
      i := i + 1;
    }
    assert codes[..i] == codes;
    if i == 0 {
      return Err(EmptyLinkTable);
    }
    r := Ok(best);
  }

  /** A name is known exactly when its patient code column is non-empty. */
  lemma KnownIffRows(rows: seq<Row>, name: string)
    ensures |PtColumn(NameRows(rows, name))| > 0 <==> KnownName(rows, name)
  {
    var named := NameRows(rows, name);
    ColumnLength(named);
    if |named| > 0 {
      assert named[0] in named;
    }
    if KnownName(rows, name) {
      var j :| 0 <= j < |rows| && rows[j].patientName == name;
      assert rows[j] in rows;
    }
  }

  lemma {:induction false} ColumnLength(rows: seq<Row>)
    ensures |PtColumn(rows)| == |rows|
    decreases |rows|
  {
    if |rows| > 0 {
      ColumnLength(rows[..|rows| - 1]);
    }
  }

  /** One more row of the table: its name's rows and its folders grow by that row at most. */
  lemma ScanStep(rows: seq<Row>, i: nat, name: string, folder: string)
    requires i < |rows|
    ensures NameRows(rows[..i + 1], name) == NameRows(rows[..i], name) + (if rows[i].patientName == name then [rows[i]] else [])
    ensures HasFolder(rows[..i + 1], folder) <==> HasFolder(rows[..i], folder) || rows[i].folderGt == folder
  {
    assert rows[..i + 1] == rows[..i] + [rows[i]];
    assert rows[..i + 1][..i] == rows[..i];
  }

  /** The code columns of one more row. */
  lemma ColumnsSnoc(rows: seq<Row>, r: Row)
    ensures PtColumn(rows + [r]) == PtColumn(rows) + [r.anonymizedPt]
    ensures ScanColumn(rows + [r]) == ScanColumn(rows) + [r.anonymizedScanfolder]
  {
    assert (rows + [r])[..|rows|] == rows;
  }

  /**
   * The .loc selections of one patient name: its patient codes and scan
   * codes in table order; the name is known exactly when there is one.
   */
  method SelectName(rows: seq<Row>, name: string) returns (ptCodes: seq<string>, scanCodes: seq<string>)
    ensures ptCodes == PtColumn(NameRows(rows, name)) && scanCodes == ScanColumn(NameRows(rows, name))
    ensures |ptCodes| > 0 <==> KnownName(rows, name)
  {
    ptCodes, scanCodes := [], [];
    ghost var seen: seq<Row> := [];
    var i := 0;
    while i < |rows|
      invariant 0 <= i <= |rows|
      invariant seen == NameRows(rows[..i], name)
      invariant ptCodes == PtColumn(seen) && scanCodes == ScanColumn(seen)
    {
      ScanStep(rows, i, name, "");
      if rows[i].patientName == name {
        ColumnsSnoc(seen, rows[i]);
        seen := seen + [rows[i]];
        ptCodes := ptCodes + [rows[i].anonymizedPt];
        scanCodes := scanCodes + [rows[i].anonymizedScanfolder];
      }
      i := i + 1;
    }
    assert rows[..i] == rows;
    KnownIffRows(rows, name);
  }

  /** The membership test on the folder_gt column. */
  method FindFolder(rows: seq<Row>, folder: string) returns (found: bool)
    ensures found <==> HasFolder(rows, folder)
  {
    found := false;
    var i := 0;
    while i < |rows|
      invariant 0 <= i <= |rows|
      invariant found <==> HasFolder(rows[..i], folder)
    {
      ScanStep(rows, i, "", folder);
      if rows[i].folderGt == folder {
        found := true;
      }
      i := i + 1;
    }
    assert rows[..i] == rows;
  }

  /**
   * The indices and codes for a resolved name, and the appended row.
   */
  method AssignCodes(rec: ScanRecord, ptName: string, table: Option<seq<Row>>) returns (r: Result<Linked, Error>)
    ensures r == LinkName(rec, ptName, table)
  {
    var ptIdx: nat, scanIdx: nat, rows: seq<Row>;
    if table.None? {
      ptIdx, scanIdx, rows := 1, 1, [];
    } else {
      rows := table.value;
      var ptCodes, scanCodes := SelectName(rows, ptName);
      if |ptCodes| > 0 {
        // sanity check: the same folder must not be processed twice
        var folderSeen := FindFolder(rows, rec.folderGt);
        if folderSeen {
          return Err(DuplicateFolder(rec.folderGt));
        }
        if |set c | c in ptCodes| != 1 {
          return Err(CorruptLinkTable(ptName, ptCodes));
        }
        match PatientIndex(ptCodes[0])
        case None =>
          return Err(MalformedCode(ptCodes[0]));
        case Some(p) =>
          ptIdx := p;
        var m := MaxIndex(scanCodes, ScanIndex);
        if m.Err? {
          return Err(m.error);
        }
        scanIdx := m.value + 1;
      } else {
        var m := MaxIndex(PtColumn(rows), PatientIndex);
        if m.Err? {
          return Err(m.error);
        }
        ptIdx, scanIdx := m.value + 1, 1;
      }
    }
    var ptCode := PatientCode(ptIdx);
    var row := Row(rec.folderGt, ptName, ptCode, ScanCode(ptCode, scanIdx));
    r := Ok(Linked(row, rows + [row]));
  }

  /**
   * anonymize_folder's name resolution and code assignment: the record's
   * names are cleaned and resolved, the table is searched, and the record,
   * with its codes, is appended as one new row.
   */
  method AnonymizeFolder(rec: ScanRecord, table: Option<seq<Row>>, operatorName: Option<string>)
    returns (r: Result<Linked, Error>)
    ensures r == Link(rec, table, operatorName)
    ensures r.Ok? ==> r.value.table == TableRows(table) + [r.value.row]
    ensures r.Ok? ==> r.value.row.folderGt == rec.folderGt
  {
    // the placeholder left by an earlier run is removed
    var names := rec.patientNames;
    if ANONYMOUS in names {
      names := RemoveFirst(names, ANONYMOUS);
    }
    var ptName: string;
    if |names| > 1 {
      match operatorName
      case None =>
        return Err(AmbiguousIdentity(names, rec.folderGt));
      case Some(n) =>
        ptName := n;
    } else if |names| == 0 {
      return Err(EmptyName(rec.folderGt));
    } else {
      ptName := names[0];
    }
    assert ResolveName(rec.folderGt, rec.patientNames, operatorName) == Ok(ptName);

    r := AssignCodes(rec, ptName, table);
  }
}

=== FILE: linkage_properties.dfy ===
/**
 * What the linkage promises: how a name is resolved, which codes a patient
 * and a scan get, and the link-table invariants every append keeps.
 */
module LinkageProperties {
  import opened Wrappers
  import opened Codes
  import opened Linkage

  // ---------------------------------------------------------------------
  // Name resolution

  /** The names of a folder are collected in a set, so its list has no repeats. */
  predicate Distinct(s: seq<string>) {
    forall i, j :: 0 <= i < j < |s| ==> s[i] != s[j]
  }

  function Elements(s: seq<string>): set<string> {
    set x | x in s
  }

  /** The names found in a folder other than the placeholder. */
  function RealNames(names: seq<string>): set<string> {
    set x | x in names && x != ANONYMOUS
  }

  lemma {:induction false} DistinctCardinality(s: seq<string>)
    requires Distinct(s)
    ensures |Elements(s)| == |s|
    decreases |s|
  {
    if |s| > 0 {
      DistinctCardinality(s[1..]);
      assert Elements(s) == {s[0]} + Elements(s[1..]);
      assert s[0] !in Elements(s[1..]);
    }
  }

  lemma {:induction false} RemoveFirstDistinct(s: seq<string>, x: string)
    requires Distinct(s)
    ensures Distinct(RemoveFirst(s, x))
    ensures Elements(RemoveFirst(s, x)) == Elements(s) - {x}
    decreases |s|
  {
    if |s| > 0 {
      var tail := s[1..];
      assert Distinct(tail);
      assert Elements(s) == {s[0]} + Elements(tail);
      assert s[0] !in Elements(tail);
      if s[0] != x {
        RemoveFirstDistinct(tail, x);
        var r := RemoveFirst(tail, x);
        var r' := [s[0]] + r;
        assert RemoveFirst(s, x) == r';
        assert s[0] !in Elements(r);
        forall i, j | 0 <= i < j < |r'| ensures r'[i] != r'[j] {
          if i == 0 {
            assert r'[j] == r[j - 1];
            assert r[j - 1] in Elements(r);
          } else {
            assert r'[i] == r[i - 1] && r'[j] == r[j - 1];
          }
        }
        assert Elements(r') == {s[0]} + Elements(r);
      }
    }
  }

  /** The list the resolution decides on: the folder's names without the placeholder. */
  lemma CleanedNames(names: seq<string>) returns (rest: seq<string>)
    requires Distinct(names)
    ensures rest == if ANONYMOUS in names then RemoveFirst(names, ANONYMOUS) else names
    ensures Elements(rest) == RealNames(names) && |rest| == |RealNames(names)|
  {
    rest := if ANONYMOUS in names then RemoveFirst(names, ANONYMOUS) else names;
    if ANONYMOUS in names {
      RemoveFirstDistinct(names, ANONYMOUS);
    }
    DistinctCardinality(rest);
  }

  /**
   * Without an operator: exactly one real name is taken, none is an error,
   * several are an ambiguity that carries all of them.
   */
  lemma ResolveWithoutOperator(folder: string, names: seq<string>)
    requires Distinct(names)
    ensures ResolveName(folder, names, None).Ok? <==> |RealNames(names)| == 1
    ensures ResolveName(folder, names, None).Ok? ==> RealNames(names) == {ResolveName(folder, names, None).value}
    ensures ResolveName(folder, names, None) == Err(EmptyName(folder)) <==> RealNames(names) == {}
    ensures ResolveName(folder, names, None).Err? && ResolveName(folder, names, None).error.AmbiguousIdentity?
        <==> |RealNames(names)| > 1
    ensures ResolveName(folder, names, None).Err? && ResolveName(folder, names, None).error.AmbiguousIdentity?
        ==> Elements(ResolveName(folder, names, None).error.names) == RealNames(names)
  {
    var rest := CleanedNames(names);
    if |rest| == 1 {
      assert Elements(rest) == {rest[0]};
    }
  }

  /** With an operator answer: it decides exactly when several real names remain. */
  lemma ResolveWithOperator(folder: string, names: seq<string>, answer: string)
    requires Distinct(names)
    ensures |RealNames(names)| > 1 ==> ResolveName(folder, names, Some(answer)) == Ok(answer)
    ensures |RealNames(names)| <= 1 ==> ResolveName(folder, names, Some(answer)) == ResolveName(folder, names, None)
  {
    var rest := CleanedNames(names);
  }

  /** The placeholder is never the resolved name unless the operator types it. */
  lemma ResolvedNameIsReal(folder: string, names: seq<string>)
    requires Distinct(names) && ResolveName(folder, names, None).Ok?
    ensures ResolveName(folder, names, None).value in names
    ensures ResolveName(folder, names, None).value != ANONYMOUS
  {
    ResolveWithoutOperator(folder, names);
    var n := ResolveName(folder, names, None).value;
    assert n in RealNames(names);
  }

  /** A folder whose metadata holds the placeholder and one name resolves to that name without asking. */
  lemma PlaceholderDiscarded()
    ensures ResolveName("GT001", ["anonymous", "Jane Doe"], None) == Ok("Jane Doe")
    ensures ResolveName("GT001", ["Jane Doe", "anonymous"], None) == Ok("Jane Doe")
  {
  }

  /** Two genuine names: an ambiguity naming both, until the operator answers. */
  lemma GenuineConflict()
    ensures ResolveName("GT001", ["Jane Doe", "John Roe"], None) == Err(AmbiguousIdentity(["Jane Doe", "John Roe"], "GT001"))
    ensures ResolveName("GT001", ["Jane Doe", "John Roe"], Some("Jane Doe")) == Ok("Jane Doe")
  {
  }

  // ---------------------------------------------------------------------
  // Table helpers

  lemma {:induction false} ColumnsAt(rows: seq<Row>)
    ensures |PtColumn(rows)| == |rows| && |ScanColumn(rows)| == |rows|
    ensures forall k :: 0 <= k < |rows| ==> PtColumn(rows)[k] == rows[k].anonymizedPt
    ensures forall k :: 0 <= k < |rows| ==> ScanColumn(rows)[k] == rows[k].anonymizedScanfolder
    decreases |rows|
  {
    if |rows| > 0 {
      ColumnsAt(rows[..|rows| - 1]);
    }
  }

  lemma SingletonSet(s: set<string>, c: string)
    requires |s| == 1 && c in s
    ensures s == {c}
  {
    var rest := s - {c};
    assert s == rest + {c};
    assert |rest| == 0;
  }

  /** A row of the name has its codes at some position of the name's columns. */
  lemma RowInColumns(t: seq<Row>, name: string, i: nat) returns (k: nat)
    requires i < |t| && t[i].patientName == name
    ensures k < |NameRows(t, name)| && NameRows(t, name)[k] == t[i]
    ensures k < |PtColumn(NameRows(t, name))| && PtColumn(NameRows(t, name))[k] == t[i].anonymizedPt
    ensures k < |ScanColumn(NameRows(t, name))| && ScanColumn(NameRows(t, name))[k] == t[i].anonymizedScanfolder
  {
    var rows := NameRows(t, name);
    assert t[i] in rows;
    k :| 0 <= k < |rows| && rows[k] == t[i];
    ColumnsAt(rows);
  }

  /** A row of the name's rows sits at some position of the table. */
  lemma ColumnRowInTable(t: seq<Row>, name: string, k: nat) returns (i: nat)
    requires k < |NameRows(t, name)|
    ensures i < |t| && t[i] == NameRows(t, name)[k] && t[i].patientName == name
  {
    assert NameRows(t, name)[k] in t;
    i :| 0 <= i < |t| && t[i] == NameRows(t, name)[k];
  }

  /** An unknown name has no rows. */
  lemma UnknownNameRows(t: seq<Row>, name: string)
    requires !KnownName(t, name)
    ensures NameRows(t, name) == []
  {
  }

  /** Appending a row of the name appends it to the name's rows. */
  lemma NameRowsAppend(t: seq<Row>, row: Row)
    ensures NameRows(t + [row], row.patientName) == NameRows(t, row.patientName) + [row]
  {
    assert (t + [row])[..|t|] == t;
  }

  // ---------------------------------------------------------------------
  // Table invariants

  /** A row as the linkage writes it: canonical codes, the scan code built on the patient code. */
  predicate WellFormedRow(r: Row) {
    && PatientIndex(r.anonymizedPt).Some?
    && r.anonymizedPt == PatientCode(PatientIndex(r.anonymizedPt).value)
    && ScanIndex(r.anonymizedScanfolder).Some?
    && r.anonymizedScanfolder == ScanCode(r.anonymizedPt, ScanIndex(r.anonymizedScanfolder).value)
  }

  predicate WellFormed(t: seq<Row>) {
    forall i {:trigger WellFormedRow(t[i])} :: 0 <= i < |t| ==> WellFormedRow(t[i])
  }

  /** Every patient name has one patient code. */
  predicate CodePerName(t: seq<Row>) {
    forall i, j :: 0 <= i < |t| && 0 <= j < |t| && t[i].patientName == t[j].patientName ==>
      t[i].anonymizedPt == t[j].anonymizedPt
  }

  /** Every patient code belongs to one patient name. */
  predicate NamePerCode(t: seq<Row>) {
    forall i, j :: 0 <= i < |t| && 0 <= j < |t| && t[i].anonymizedPt == t[j].anonymizedPt ==>
      t[i].patientName == t[j].patientName
  }

  predicate UniqueScanCodes(t: seq<Row>) {
    forall i, j :: 0 <= i < j < |t| ==> t[i].anonymizedScanfolder != t[j].anonymizedScanfolder
  }

  predicate UniqueFolders(t: seq<Row>) {
    forall i, j :: 0 <= i < j < |t| ==> t[i].folderGt != t[j].folderGt
  }

  /** The invariants of a link table written only by the linkage. */
  predicate Consistent(t: seq<Row>) {
    WellFormed(t) && CodePerName(t) && NamePerCode(t) && UniqueScanCodes(t)
  }

  lemma AssignWellFormed(rec: ScanRecord, name: string, p: nat, s: nat, t: seq<Row>)
    ensures WellFormedRow(Assign(rec, name, p, s, t).row)
    ensures PatientIndex(Assign(rec, name, p, s, t).row.anonymizedPt) == Some(p)
    ensures ScanIndex(Assign(rec, name, p, s, t).row.anonymizedScanfolder) == Some(s)
  {
    PatientCodeRoundTrip(p);
    ScanCodeRoundTrip(p, s);
  }

  // ---------------------------------------------------------------------
  // The codes a linkage assigns

  /** Without a link file the folder is patient 1, scan 1, and the table is that one row. */
  lemma NoTableFirstCodes(rec: ScanRecord, operatorName: Option<string>)
    requires Link(rec, None, operatorName).Ok?
    ensures var l := Link(rec, None, operatorName).value;
      PatientIndex(l.row.anonymizedPt) == Some(1) && ScanIndex(l.row.anonymizedScanfolder) == Some(1) && l.table == [l.row]
  {
    var l := Link(rec, None, operatorName).value;
    AssignWellFormed(rec, l.row.patientName, 1, 1, []);
  }

  /** Every row the linkage appends is well formed. */
  lemma LinkedRowWellFormed(rec: ScanRecord, table: Option<seq<Row>>, operatorName: Option<string>)
    requires Link(rec, table, operatorName).Ok?
    ensures WellFormedRow(Link(rec, table, operatorName).value.row)
  {
    var name := Link(rec, table, operatorName).value.row.patientName;
    match table
    case None =>
      AssignWellFormed(rec, name, 1, 1, []);
    case Some(t) =>
      LinkBranch(rec, t, operatorName);
      if KnownName(t, name) {
        LinkKnownOk(rec, name, t);
        var idx := KnownIndices(rec, name, t).value;
        AssignWellFormed(rec, name, idx.0, idx.1, t);
      } else {
        LinkNewOk(rec, name, t);
        AssignWellFormed(rec, name, HighestIndex(PtColumn(t), PatientIndex).value + 1, 1, t);
      }
  }

  /** What a successful new-patient branch read, and the row it appends. */
  lemma LinkNewOk(rec: ScanRecord, name: string, t: seq<Row>)
    requires LinkNew(rec, name, t).Ok?
    ensures HighestIndex(PtColumn(t), PatientIndex).Ok?
    ensures LinkNew(rec, name, t) == Ok(Assign(rec, name, HighestIndex(PtColumn(t), PatientIndex).value + 1, 1, t))
  {
    NewReadIndices(rec, name, t);
    NewAssigned(rec, name, t, HighestIndex(PtColumn(t), PatientIndex).value);
  }

  lemma NewReadIndices(rec: ScanRecord, name: string, t: seq<Row>)
    requires LinkNew(rec, name, t).Ok?
    ensures HighestIndex(PtColumn(t), PatientIndex).Ok?
  {
  }

  /** The branch a successful linkage took, by the resolved name. */
  lemma LinkBranch(rec: ScanRecord, t: seq<Row>, operatorName: Option<string>)
    requires Link(rec, Some(t), operatorName).Ok?
    ensures var name := Link(rec, Some(t), operatorName).value.row.patientName;
      Link(rec, Some(t), operatorName) == if KnownName(t, name) then LinkKnown(rec, name, t) else LinkNew(rec, name, t)
  {
  }

  /** What a successful known branch checked, and the indices it chose. */
  lemma KnownIndicesOk(rec: ScanRecord, name: string, t: seq<Row>)
    requires KnownIndices(rec, name, t).Ok?
    ensures var rows := NameRows(t, name);
      && !HasFolder(t, rec.folderGt)
      && |PtColumn(rows)| > 0 && |set x | x in PtColumn(rows)| == 1
      && PatientIndex(PtColumn(rows)[0]).Some?
      && HighestIndex(ScanColumn(rows), ScanIndex).Ok?
      && KnownIndices(rec, name, t) == Ok((PatientIndex(PtColumn(rows)[0]).value, HighestIndex(ScanColumn(rows), ScanIndex).value + 1))
  {
    var rows := NameRows(t, name);
    var ptCodes := PtColumn(rows);
    SingleSetNonEmpty(ptCodes);
    KnownIndicesOf(rec, name, t, PatientIndex(ptCodes[0]).value, HighestIndex(ScanColumn(rows), ScanIndex).value);
  }

  /** A column whose set of values has one element is not empty. */
  lemma SingleSetNonEmpty(codes: seq<string>)
    requires |set x | x in codes| == 1
    ensures |codes| > 0
  {
  }

  /** The known branch succeeds with the row of the indices KnownIndices chose. */
  lemma LinkKnownOk(rec: ScanRecord, name: string, t: seq<Row>)
    requires LinkKnown(rec, name, t).Ok?
    ensures var rows := NameRows(t, name);
      && !HasFolder(t, rec.folderGt)
      && |PtColumn(rows)| > 0 && |set x | x in PtColumn(rows)| == 1
      && PatientIndex(PtColumn(rows)[0]).Some?
      && HighestIndex(ScanColumn(rows), ScanIndex).Ok?
      && KnownIndices(rec, name, t) == Ok((PatientIndex(PtColumn(rows)[0]).value, HighestIndex(ScanColumn(rows), ScanIndex).value + 1))
    ensures LinkKnown(rec, name, t) == Ok(Assign(rec, name, KnownIndices(rec, name, t).value.0, KnownIndices(rec, name, t).value.1, t))
  {
    KnownIndicesOk(rec, name, t);
  }

  /** The known branch re-formats the first stored code of the name; a canonical code comes back unchanged. */
  lemma KnownCodeIsFirst(rec: ScanRecord, name: string, t: seq<Row>)
    requires WellFormed(t) && KnownName(t, name) && LinkKnown(rec, name, t).Ok?
    ensures |PtColumn(NameRows(t, name))| > 0
    ensures LinkKnown(rec, name, t).value.row.anonymizedPt == PtColumn(NameRows(t, name))[0]
    ensures |set x | x in PtColumn(NameRows(t, name))| == 1
  {
    LinkKnownOk(rec, name, t);
    var j := ColumnRowInTable(t, name, 0);
    ColumnsAt(NameRows(t, name));
    assert WellFormedRow(t[j]);
  }

  /** When the name's patient column holds a single value, every row of the name carries it. */
  lemma RowsShareFirstCode(t: seq<Row>, name: string)
    requires |PtColumn(NameRows(t, name))| > 0 && |set x | x in PtColumn(NameRows(t, name))| == 1
    ensures forall i :: 0 <= i < |t| && t[i].patientName == name ==> t[i].anonymizedPt == PtColumn(NameRows(t, name))[0]
  {
    var ptCodes := PtColumn(NameRows(t, name));
    var c := ptCodes[0];
    var codeSet := set x | x in ptCodes;
    assert c in codeSet;
    SingletonSet(codeSet, c);
    forall i | 0 <= i < |t| && t[i].patientName == name
      ensures t[i].anonymizedPt == c
    {
      var k := RowInColumns(t, name, i);
      assert ptCodes[k] in codeSet;
    }
  }

  lemma KnownKeepsCode(rec: ScanRecord, name: string, t: seq<Row>)
    requires WellFormed(t) && KnownName(t, name) && LinkKnown(rec, name, t).Ok?
    ensures forall i :: 0 <= i < |t| && t[i].patientName == name ==>
      t[i].anonymizedPt == LinkKnown(rec, name, t).value.row.anonymizedPt
  {
    KnownCodeIsFirst(rec, name, t);
    RowsShareFirstCode(t, name);
  }

  /** A known patient keeps the code its rows already carry. */
  lemma KnownPatientKeepsCode(rec: ScanRecord, t: seq<Row>, operatorName: Option<string>)
    requires WellFormed(t) && Link(rec, Some(t), operatorName).Ok?
    requires KnownName(t, Link(rec, Some(t), operatorName).value.row.patientName)
    ensures var row := Link(rec, Some(t), operatorName).value.row;
      forall i :: 0 <= i < |t| && t[i].patientName == row.patientName ==> t[i].anonymizedPt == row.anonymizedPt
  {
    LinkBranch(rec, t, operatorName);
    KnownKeepsCode(rec, Link(rec, Some(t), operatorName).value.row.patientName, t);
  }

  lemma KnownNextScan(rec: ScanRecord, name: string, t: seq<Row>)
    requires KnownName(t, name) && LinkKnown(rec, name, t).Ok?
    ensures var row := LinkKnown(rec, name, t).value.row;
      && ScanIndex(row.anonymizedScanfolder).Some?
      && (forall i :: 0 <= i < |t| && t[i].patientName == name ==>
            && ScanIndex(t[i].anonymizedScanfolder).Some?
            && ScanIndex(t[i].anonymizedScanfolder).value < ScanIndex(row.anonymizedScanfolder).value)
      && (exists i :: 0 <= i < |t| && t[i].patientName == name &&
            ScanIndex(t[i].anonymizedScanfolder).value + 1 == ScanIndex(row.anonymizedScanfolder).value)
  {
    LinkKnownOk(rec, name, t);
    var rows := NameRows(t, name);
    var p := PatientIndex(PtColumn(rows)[0]).value;
    var m := HighestIndex(ScanColumn(rows), ScanIndex).value;
    AssignWellFormed(rec, name, p, m + 1, t);
    ScansOfName(t, name, m);
  }

  /** The highest scan index of a name is read from one of its rows and bounds all of them. */
  lemma ScansOfName(t: seq<Row>, name: string, m: nat)
    requires HighestIndex(ScanColumn(NameRows(t, name)), ScanIndex) == Ok(m)
    ensures forall i :: 0 <= i < |t| && t[i].patientName == name ==>
      ScanIndex(t[i].anonymizedScanfolder).Some? && ScanIndex(t[i].anonymizedScanfolder).value <= m
    ensures exists i :: 0 <= i < |t| && t[i].patientName == name && ScanIndex(t[i].anonymizedScanfolder) == Some(m)
  {
    var rows := NameRows(t, name);
    var codes := ScanColumn(rows);
    HighestIndexSpec(codes, ScanIndex);
    forall i | 0 <= i < |t| && t[i].patientName == name
      ensures ScanIndex(t[i].anonymizedScanfolder).Some? && ScanIndex(t[i].anonymizedScanfolder).value <= m
    {
      var k := RowInColumns(t, name, i);
    }
    var k :| 0 <= k < |codes| && ScanIndex(codes[k]) == Some(m);
    ColumnsAt(rows);
    var i := ColumnRowInTable(t, name, k);
    assert t[i].anonymizedScanfolder == codes[k];
  }


  /**
   * A known patient's new scan index is one more than the largest of its
   * scans, so it exceeds, and differs from, every scan it already has.
   */
  lemma KnownPatientNextScan(rec: ScanRecord, t: seq<Row>, operatorName: Option<string>)
    requires Link(rec, Some(t), operatorName).Ok?
    requires KnownName(t, Link(rec, Some(t), operatorName).value.row.patientName)
    ensures var row := Link(rec, Some(t), operatorName).value.row;
      && ScanIndex(row.anonymizedScanfolder).Some?
      && (forall i :: 0 <= i < |t| && t[i].patientName == row.patientName ==>
            && ScanIndex(t[i].anonymizedScanfolder).Some?
            && ScanIndex(t[i].anonymizedScanfolder).value < ScanIndex(row.anonymizedScanfolder).value
            && t[i].anonymizedScanfolder != row.anonymizedScanfolder)
      && (exists i :: 0 <= i < |t| && t[i].patientName == row.patientName &&
            ScanIndex(t[i].anonymizedScanfolder).value + 1 == ScanIndex(row.anonymizedScanfolder).value)
  {
    LinkBranch(rec, t, operatorName);
    KnownNextScan(rec, Link(rec, Some(t), operatorName).value.row.patientName, t);
  }

  lemma NewFreshCode(rec: ScanRecord, name: string, t: seq<Row>)
    requires LinkNew(rec, name, t).Ok?
    ensures var row := LinkNew(rec, name, t).value.row;
      && PatientIndex(row.anonymizedPt).Some?
      && ScanIndex(row.anonymizedScanfolder) == Some(1)
      && (forall i :: 0 <= i < |t| ==>
            && PatientIndex(t[i].anonymizedPt).Some?
            && PatientIndex(t[i].anonymizedPt).value < PatientIndex(row.anonymizedPt).value)
  {
    var m := HighestIndex(PtColumn(t), PatientIndex).value;
    NewAssigned(rec, name, t, m);
    HighestIndexSpec(PtColumn(t), PatientIndex);
    ColumnsAt(t);
    AssignWellFormed(rec, name, m + 1, 1, t);
    forall i | 0 <= i < |t|
      ensures PatientIndex(t[i].anonymizedPt).Some? && PatientIndex(t[i].anonymizedPt).value <= m
    {
      assert PtColumn(t)[i] == t[i].anonymizedPt;
    }
  }

  /**
   * A new patient gets one more than the largest patient index in the
   * table, so its code differs from every code already there; its scan is
   * the first.
   */
  lemma NewPatientFreshCode(rec: ScanRecord, t: seq<Row>, operatorName: Option<string>)
    requires Link(rec, Some(t), operatorName).Ok?
    requires !KnownName(t, Link(rec, Some(t), operatorName).value.row.patientName)
    ensures var row := Link(rec, Some(t), operatorName).value.row;
      && PatientIndex(row.anonymizedPt).Some?
      && ScanIndex(row.anonymizedScanfolder) == Some(1)
      && (forall i :: 0 <= i < |t| ==>
            && PatientIndex(t[i].anonymizedPt).Some?
            && PatientIndex(t[i].anonymizedPt).value < PatientIndex(row.anonymizedPt).value
            && t[i].anonymizedPt != row.anonymizedPt)
  {
    LinkBranch(rec, t, operatorName);
    NewFreshCode(rec, Link(rec, Some(t), operatorName).value.row.patientName, t);
  }

  // ---------------------------------------------------------------------
  // Invariants kept by every append

  lemma AppendKeepsCodePerName(t: seq<Row>, row: Row)
    requires CodePerName(t)
    requires forall i :: 0 <= i < |t| && t[i].patientName == row.patientName ==> t[i].anonymizedPt == row.anonymizedPt
    ensures CodePerName(t + [row])
  {
    var t' := t + [row];
    forall i, j | 0 <= i < |t'| && 0 <= j < |t'| && t'[i].patientName == t'[j].patientName
      ensures t'[i].anonymizedPt == t'[j].anonymizedPt
    {
      if i < |t| && j < |t| {
        assert t'[i] == t[i] && t'[j] == t[j];
      } else if i < |t| {
        assert t'[i] == t[i];
      } else if j < |t| {
        assert t'[j] == t[j];
      }
    }
  }

  lemma AppendKeepsNamePerCode(t: seq<Row>, row: Row)
    requires NamePerCode(t)
    requires forall i :: 0 <= i < |t| && t[i].anonymizedPt == row.anonymizedPt ==> t[i].patientName == row.patientName
    ensures NamePerCode(t + [row])
  {
    var t' := t + [row];
    forall i, j | 0 <= i < |t'| && 0 <= j < |t'| && t'[i].anonymizedPt == t'[j].anonymizedPt
      ensures t'[i].patientName == t'[j].patientName
    {
      if i < |t| && j < |t| {
        assert t'[i] == t[i] && t'[j] == t[j];
      } else if i < |t| {
        assert t'[i] == t[i];
      } else if j < |t| {
        assert t'[j] == t[j];
      }
    }
  }

  lemma AppendKeepsUniqueScanCodes(t: seq<Row>, row: Row)
    requires UniqueScanCodes(t)
    requires forall i :: 0 <= i < |t| ==> t[i].anonymizedScanfolder != row.anonymizedScanfolder
    ensures UniqueScanCodes(t + [row])
  {
    var t' := t + [row];
    forall i, j | 0 <= i < j < |t'|
      ensures t'[i].anonymizedScanfolder != t'[j].anonymizedScanfolder
    {
      assert t'[i] == t[i];
      if j < |t| {
        assert t'[j] == t[j];
      }
    }
  }

  lemma AppendKeepsWellFormed(t: seq<Row>, row: Row)
    requires WellFormed(t) && WellFormedRow(row)
    ensures WellFormed(t + [row])
  {
    var t' := t + [row];
    forall i | 0 <= i < |t'| ensures WellFormedRow(t'[i]) {
      if i < |t| {
        assert t'[i] == t[i];
        assert WellFormedRow(t[i]);
      }
    }
  }

  /** Two well-formed rows with the same scan code have the same patient code and scan index. */
  lemma SameScanCode(a: Row, b: Row)
    requires WellFormedRow(a) && WellFormedRow(b) && a.anonymizedScanfolder == b.anonymizedScanfolder
    ensures a.anonymizedPt == b.anonymizedPt
    ensures ScanIndex(a.anonymizedScanfolder) == ScanIndex(b.anonymizedScanfolder)
  {
    ScanCodeInjective(PatientIndex(a.anonymizedPt).value, ScanIndex(a.anonymizedScanfolder).value,
                      PatientIndex(b.anonymizedPt).value, ScanIndex(b.anonymizedScanfolder).value);
  }

  /** A known patient's new code is shared only with its own rows, and its new scan code with none. */
  lemma KnownScanCodeFresh(rec: ScanRecord, t: seq<Row>, operatorName: Option<string>)
    requires WellFormed(t) && NamePerCode(t) && Link(rec, Some(t), operatorName).Ok?
    requires KnownName(t, Link(rec, Some(t), operatorName).value.row.patientName)
    ensures var row := Link(rec, Some(t), operatorName).value.row;
      forall i :: 0 <= i < |t| && t[i].anonymizedPt == row.anonymizedPt ==> t[i].patientName == row.patientName
    ensures var row := Link(rec, Some(t), operatorName).value.row;
      forall i :: 0 <= i < |t| ==> t[i].anonymizedScanfolder != row.anonymizedScanfolder
  {
    var row := Link(rec, Some(t), operatorName).value.row;
    LinkedRowWellFormed(rec, Some(t), operatorName);
    KnownPatientKeepsCode(rec, t, operatorName);
    KnownPatientNextScan(rec, t, operatorName);
    var j :| 0 <= j < |t| && t[j].patientName == row.patientName;
    forall i | 0 <= i < |t| && t[i].anonymizedPt == row.anonymizedPt
      ensures t[i].patientName == row.patientName
    {
      assert t[i].anonymizedPt == t[j].anonymizedPt;
    }
    forall i | 0 <= i < |t|
      ensures t[i].anonymizedScanfolder != row.anonymizedScanfolder
    {
      if t[i].anonymizedScanfolder == row.anonymizedScanfolder {
        assert WellFormedRow(t[i]);
        SameScanCode(t[i], row);
        assert false;
      }
    }
  }

  /** A new patient's scan code is new to the table. */
  lemma NewScanCodeFresh(rec: ScanRecord, t: seq<Row>, operatorName: Option<string>)
    requires WellFormed(t) && Link(rec, Some(t), operatorName).Ok?
    requires !KnownName(t, Link(rec, Some(t), operatorName).value.row.patientName)
    ensures var row := Link(rec, Some(t), operatorName).value.row;
      forall i :: 0 <= i < |t| ==> t[i].anonymizedScanfolder != row.anonymizedScanfolder
  {
    var row := Link(rec, Some(t), operatorName).value.row;
    LinkedRowWellFormed(rec, Some(t), operatorName);
    NewPatientFreshCode(rec, t, operatorName);
    forall i | 0 <= i < |t|
      ensures t[i].anonymizedScanfolder != row.anonymizedScanfolder
    {
      if t[i].anonymizedScanfolder == row.anonymizedScanfolder {
        assert WellFormedRow(t[i]);
        SameScanCode(t[i], row);
        assert false;
      }
    }
  }

  /** The link table's row invariants survive the append. */
  lemma LinkPreservesConsistency(rec: ScanRecord, table: Option<seq<Row>>, operatorName: Option<string>)
    requires Consistent(TableRows(table)) && Link(rec, table, operatorName).Ok?
    ensures Consistent(Link(rec, table, operatorName).value.table)
  {
    var l := Link(rec, table, operatorName).value;
    var t := TableRows(table);
    var row := l.row;
    LinkedRowWellFormed(rec, table, operatorName);
    AppendKeepsWellFormed(t, row);
    if table.Some? {
      if KnownName(t, row.patientName) {
        KnownPatientKeepsCode(rec, t, operatorName);
        KnownScanCodeFresh(rec, t, operatorName);
      } else {
        NewPatientFreshCode(rec, t, operatorName);
        NewScanCodeFresh(rec, t, operatorName);
      }
    }
    AppendKeepsCodePerName(t, row);
    AppendKeepsNamePerCode(t, row);
    AppendKeepsUniqueScanCodes(t, row);
  }

  /** The same folder with the same name cannot be linked twice. */
  lemma SecondRunRejected(rec: ScanRecord, table: Option<seq<Row>>, operatorName: Option<string>)
    requires Link(rec, table, operatorName).Ok?
    ensures Link(rec, Some(Link(rec, table, operatorName).value.table), operatorName) == Err(DuplicateFolder(rec.folderGt))
  {
    var l := Link(rec, table, operatorName).value;
    var n := |l.table| - 1;
    assert l.table[n] == l.row;
    assert KnownName(l.table, l.row.patientName);
    assert HasFolder(l.table, rec.folderGt);
  }

  /** The duplicate-folder check guards known patients: a known name keeps the folders unique. */
  lemma KnownPatientKeepsFoldersUnique(rec: ScanRecord, t: seq<Row>, operatorName: Option<string>)
    requires UniqueFolders(t) && Link(rec, Some(t), operatorName).Ok?
    requires KnownName(t, Link(rec, Some(t), operatorName).value.row.patientName)
    ensures UniqueFolders(Link(rec, Some(t), operatorName).value.table)
  {
    var l := Link(rec, Some(t), operatorName).value;
    assert !HasFolder(t, rec.folderGt);
    forall i, j | 0 <= i < j < |l.table|
      ensures l.table[i].folderGt != l.table[j].folderGt
    {
      if j == |t| {
        assert l.table[i] == t[i];
      } else {
        assert l.table[i] == t[i] && l.table[j] == t[j];
      }
    }
  }

  /**
   * The duplicate-folder check does not run for a new name: a recorded
   * folder whose name now resolves differently is appended a second time.
   */
  lemma NewNameSkipsFolderCheck()
    ensures var t := [Row("GT001", "Jane Doe", "P0001", "P0001_01")];
      var r := Link(ScanRecord("GT001", ["John Roe"]), Some(t), None);
      r.Ok? && r.value.table[0].folderGt == r.value.table[1].folderGt
  {
    FirstIndices();
    NewNameSkipsFolderOf("GT001", "Jane Doe", "John Roe", "P0001", "P0001_01");
  }

  /** The same for any folder, two different real names, and a stored code of patient 1. */
  lemma NewNameSkipsFolderOf(folder: string, name1: string, name2: string, ptCode: string, scanCode: string)
    requires name1 != name2 && name2 != ANONYMOUS && PatientIndex(ptCode) == Some(1)
    ensures var t := [Row(folder, name1, ptCode, scanCode)];
      var r := Link(ScanRecord(folder, [name2]), Some(t), None);
      r.Ok? && r.value.table[0].folderGt == r.value.table[1].folderGt
  {
    var t := [Row(folder, name1, ptCode, scanCode)];
    var rec := ScanRecord(folder, [name2]);
    assert ResolveName(folder, [name2], None) == Ok(name2);
    assert !KnownName(t, name2);
    NewNameLinks(rec, name2, t);
    assert PtColumn(t) == [] + [ptCode];
    HighestIndexAppend([], ptCode, PatientIndex);
    NewAssigned(rec, name2, t, 1);
    assert (t + [Assign(rec, name2, 2, 1, t).row])[1].folderGt == folder;
  }

  /** A name that resolves and is not in the table takes the new-patient branch. */
  lemma NewNameLinks(rec: ScanRecord, name: string, t: seq<Row>)
    requires ResolveName(rec.folderGt, rec.patientNames, None) == Ok(name)
    requires !exists i :: 0 <= i < |t| && t[i].patientName == name
    ensures Link(rec, Some(t), None) == LinkNew(rec, name, t)
  {
  }

  /** The new-patient branch, given the highest stored patient index. */
  lemma NewAssigned(rec: ScanRecord, name: string, t: seq<Row>, m: nat)
    requires HighestIndex(PtColumn(t), PatientIndex) == Ok(m)
    ensures LinkNew(rec, name, t) == Ok(Assign(rec, name, m + 1, 1, t))
  {
  }

  /** The name's columns after appending a row of that name. */
  lemma NameColumnsAppend(t: seq<Row>, row: Row)
    ensures PtColumn(NameRows(t + [row], row.patientName)) == PtColumn(NameRows(t, row.patientName)) + [row.anonymizedPt]
    ensures ScanColumn(NameRows(t + [row], row.patientName)) == ScanColumn(NameRows(t, row.patientName)) + [row.anonymizedScanfolder]
  {
    NameRowsAppend(t, row);
    var rows := NameRows(t, row.patientName);
    assert (rows + [row])[..|rows|] == rows;
  }

  /** A larger index read from one more code becomes the highest. */
  lemma HighestIndexAppend(codes: seq<string>, x: string, index: string -> Option<nat>)
    requires index(x).Some?
    requires codes == [] || (HighestIndex(codes, index).Ok? && HighestIndex(codes, index).value < index(x).value)
    ensures HighestIndex(codes + [x], index) == Ok(index(x).value)
  {
    var all := codes + [x];
    var k := index(x).value;
    assert all[..|codes|] == codes;
    assert all[|all| - 1] == x;
    if codes == [] {
      assert ParseAll(codes, index) == Ok([]);
      assert [] + [k] == [k];
      assert ParseAll(all, index) == Ok([k]);
    } else {
      var v := ParseAll(codes, index).value;
      assert ParseAll(all, index) == Ok(v + [k]);
      assert (v + [k])[..|v|] == v;
      assert Max(v) == HighestIndex(codes, index).value;
    }
  }

  /** Before the append, the patient's rows all carried the new row's code. */
  lemma EarlierRowsShareCode(rec: ScanRecord, table: Option<seq<Row>>, operatorName: Option<string>)
    requires WellFormed(TableRows(table)) && Link(rec, table, operatorName).Ok?
    ensures var row := Link(rec, table, operatorName).value.row;
      var codes := PtColumn(NameRows(TableRows(table), row.patientName));
      forall k :: 0 <= k < |codes| ==> codes[k] == row.anonymizedPt
  {
    var row := Link(rec, table, operatorName).value.row;
    var t := TableRows(table);
    if table.Some? && KnownName(t, row.patientName) {
      KnownPatientKeepsCode(rec, t, operatorName);
      NameRowsCarry(t, row.patientName, row.anonymizedPt);
    } else if table.Some? {
      UnknownNameRows(t, row.patientName);
    }
  }

  /** When every row of a name carries the code c, so does the name's patient column. */
  lemma NameRowsCarry(t: seq<Row>, name: string, c: string)
    requires forall i :: 0 <= i < |t| && t[i].patientName == name ==> t[i].anonymizedPt == c
    ensures forall k :: 0 <= k < |PtColumn(NameRows(t, name))| ==> PtColumn(NameRows(t, name))[k] == c
  {
    var rows := NameRows(t, name);
    ColumnsAt(rows);
    forall k | 0 <= k < |rows| ensures rows[k].anonymizedPt == c {
      var i := ColumnRowInTable(t, name, k);
    }
  }

  /** In the known branch the stored scans all stay below the new scan index. */
  lemma KnownScansBelow(rec: ScanRecord, name: string, t: seq<Row>)
    requires LinkKnown(rec, name, t).Ok?
    ensures var row := LinkKnown(rec, name, t).value.row;
      var m := HighestIndex(ScanColumn(NameRows(t, name)), ScanIndex);
      && ScanIndex(row.anonymizedScanfolder).Some?
      && m.Ok? && m.value < ScanIndex(row.anonymizedScanfolder).value
  {
    LinkKnownOk(rec, name, t);
    var rows := NameRows(t, name);
    AssignWellFormed(rec, name, PatientIndex(PtColumn(rows)[0]).value, HighestIndex(ScanColumn(rows), ScanIndex).value + 1, t);
  }

  /** In the new-patient branch the name has no stored scans and the new scan index is 1. */
  lemma NewScansNone(rec: ScanRecord, name: string, t: seq<Row>)
    requires !KnownName(t, name) && LinkNew(rec, name, t).Ok?
    ensures ScanIndex(LinkNew(rec, name, t).value.row.anonymizedScanfolder) == Some(1)
    ensures ScanColumn(NameRows(t, name)) == []
  {
    var m := HighestIndex(PtColumn(t), PatientIndex).value;
    assert LinkNew(rec, name, t) == Ok(Assign(rec, name, m + 1, 1, t));
    AssignWellFormed(rec, name, m + 1, 1, t);
    UnknownNameRows(t, name);
  }

  /** Before the append, the patient's highest scan index was below the new row's, or it had none. */
  lemma EarlierScans(rec: ScanRecord, table: Option<seq<Row>>, operatorName: Option<string>)
    requires Link(rec, table, operatorName).Ok?
    ensures var row := Link(rec, table, operatorName).value.row;
      var codes := ScanColumn(NameRows(TableRows(table), row.patientName));
      && ScanIndex(row.anonymizedScanfolder).Some?
      && (codes == [] || (HighestIndex(codes, ScanIndex).Ok? &&
                          HighestIndex(codes, ScanIndex).value < ScanIndex(row.anonymizedScanfolder).value))
  {
    var name := Link(rec, table, operatorName).value.row.patientName;
    match table
    case None =>
      AssignWellFormed(rec, name, 1, 1, []);
    case Some(t) =>
      LinkBranch(rec, t, operatorName);
      if KnownName(t, name) {
        KnownScansBelow(rec, name, t);
      } else {
        NewScansNone(rec, name, t);
      }
  }

  /** The known branch, given the name's stored codes: one patient code and a highest scan index. */
  lemma LinkKnownFromCodes(rec: ScanRecord, name: string, t: seq<Row>, c: string, s: nat)
    requires !HasFolder(t, rec.folderGt) && PatientIndex(c).Some?
    requires |PtColumn(NameRows(t, name))| > 0
    requires forall k :: 0 <= k < |PtColumn(NameRows(t, name))| ==> PtColumn(NameRows(t, name))[k] == c
    requires HighestIndex(ScanColumn(NameRows(t, name)), ScanIndex) == Ok(s)
    ensures KnownIndices(rec, name, t) == Ok((PatientIndex(c).value, s + 1))
  {
    SingleValueSet(PtColumn(NameRows(t, name)), c);
    KnownIndicesOf(rec, name, t, PatientIndex(c).value, s);
  }

  /** The known branch's indices, given the checks it makes and the two indices it reads. */
  lemma KnownIndicesOf(rec: ScanRecord, name: string, t: seq<Row>, p: nat, s: nat)
    requires !HasFolder(t, rec.folderGt)
    requires |PtColumn(NameRows(t, name))| > 0 && |set x | x in PtColumn(NameRows(t, name))| == 1
    requires PatientIndex(PtColumn(NameRows(t, name))[0]) == Some(p)
    requires HighestIndex(ScanColumn(NameRows(t, name)), ScanIndex) == Ok(s)
    ensures KnownIndices(rec, name, t) == Ok((p, s + 1))
  {
    ReadIndicesOf(PtColumn(NameRows(t, name)), ScanColumn(NameRows(t, name)), p, s);
  }

  /** The indices read from a first patient code of index p and a highest scan index s. */
  lemma ReadIndicesOf(ptCodes: seq<string>, scanCodes: seq<string>, p: nat, s: nat)
    requires |ptCodes| > 0 && PatientIndex(ptCodes[0]) == Some(p)
    requires HighestIndex(scanCodes, ScanIndex) == Ok(s)
    ensures ReadIndices(ptCodes, scanCodes) == Ok((p, s + 1))
  {
  }

  /** The known branch appends the row of the indices KnownIndices chose. */
  lemma LinkKnownOfIndices(rec: ScanRecord, name: string, t: seq<Row>, p: nat, s: nat)
    requires KnownIndices(rec, name, t) == Ok((p, s))
    ensures LinkKnown(rec, name, t) == Ok(Assign(rec, name, p, s, t))
  {
  }

  /** A non-empty column holding one value everywhere has that value as its only element. */
  lemma SingleValueSet(codes: seq<string>, c: string)
    requires |codes| > 0 && forall k :: 0 <= k < |codes| ==> codes[k] == c
    ensures codes[0] == c && (set x | x in codes) == {c} && |set x | x in codes| == 1
  {
    assert codes[0] in (set x | x in codes);
  }

  /** Appending a row whose name's stored codes all equal its own keeps that so. */
  lemma SharedCodeAfterAppend(t: seq<Row>, row: Row)
    requires forall k :: 0 <= k < |PtColumn(NameRows(t, row.patientName))| ==>
      PtColumn(NameRows(t, row.patientName))[k] == row.anonymizedPt
    ensures var after := PtColumn(NameRows(t + [row], row.patientName));
      |after| > 0 && forall k :: 0 <= k < |after| ==> after[k] == row.anonymizedPt
  {
    NameColumnsAppend(t, row);
    AllEqualAppend(PtColumn(NameRows(t, row.patientName)), row.anonymizedPt);
  }

  lemma AllEqualAppend(before: seq<string>, c: string)
    requires forall k :: 0 <= k < |before| ==> before[k] == c
    ensures forall k :: 0 <= k < |before + [c]| ==> (before + [c])[k] == c
  {
  }

  /** Appending a row whose scan index exceeds the name's stored ones makes it the highest. */
  lemma HighestScanAfterAppend(t: seq<Row>, row: Row)
    requires ScanIndex(row.anonymizedScanfolder).Some?
    requires var codes := ScanColumn(NameRows(t, row.patientName));
      codes == [] || (HighestIndex(codes, ScanIndex).Ok? &&
                      HighestIndex(codes, ScanIndex).value < ScanIndex(row.anonymizedScanfolder).value)
    ensures HighestIndex(ScanColumn(NameRows(t + [row], row.patientName)), ScanIndex) ==
      Ok(ScanIndex(row.anonymizedScanfolder).value)
  {
    NameColumnsAppend(t, row);
    HighestIndexAppend(ScanColumn(NameRows(t, row.patientName)), row.anonymizedScanfolder, ScanIndex);
  }

  /** After a well-formed row is appended, its name takes the known branch with the row's patient code and the next scan index. */
  lemma KnownAfterAppend(rec: ScanRecord, t: seq<Row>, row: Row)
    requires WellFormedRow(row) && !HasFolder(t + [row], rec.folderGt)
    requires forall k :: 0 <= k < |PtColumn(NameRows(t, row.patientName))| ==>
      PtColumn(NameRows(t, row.patientName))[k] == row.anonymizedPt
    requires var codes := ScanColumn(NameRows(t, row.patientName));
      codes == [] || (HighestIndex(codes, ScanIndex).Ok? &&
                      HighestIndex(codes, ScanIndex).value < ScanIndex(row.anonymizedScanfolder).value)
    ensures KnownName(t + [row], row.patientName)
    ensures KnownIndices(rec, row.patientName, t + [row]) ==
      Ok((PatientIndex(row.anonymizedPt).value, ScanIndex(row.anonymizedScanfolder).value + 1))
  {
    var t' := t + [row];
    assert t'[|t|] == row;
    SharedCodeAfterAppend(t, row);
    HighestScanAfterAppend(t, row);
    LinkKnownFromCodes(rec, row.patientName, t', row.anonymizedPt, ScanIndex(row.anonymizedScanfolder).value);
  }

  /**
   * Re-processing a patient: after a folder is linked, another folder of
   * the same patient gets the same patient code and the next scan index.
   */
  lemma ReprocessSamePatient(rec: ScanRecord, table: Option<seq<Row>>, operatorName: Option<string>,
                             rec2: ScanRecord, operatorName2: Option<string>)
    requires WellFormed(TableRows(table)) && Link(rec, table, operatorName).Ok?
    requires ResolveName(rec2.folderGt, rec2.patientNames, operatorName2) == Ok(Link(rec, table, operatorName).value.row.patientName)
    requires !HasFolder(Link(rec, table, operatorName).value.table, rec2.folderGt)
    ensures var l := Link(rec, table, operatorName).value;
      var r := Link(rec2, Some(l.table), operatorName2);
      && r.Ok?
      && r.value.row.anonymizedPt == l.row.anonymizedPt
      && ScanIndex(l.row.anonymizedScanfolder).Some?
      && r.value.row.anonymizedScanfolder == ScanCode(l.row.anonymizedPt, ScanIndex(l.row.anonymizedScanfolder).value + 1)
  {
    var l := Link(rec, table, operatorName).value;
    LinkedRowWellFormed(rec, table, operatorName);
    EarlierRowsShareCode(rec, table, operatorName);
    EarlierScans(rec, table, operatorName);
    KnownAfterAppend(rec2, TableRows(table), l.row);
    var p, s := PatientIndex(l.row.anonymizedPt).value, ScanIndex(l.row.anonymizedScanfolder).value;
    LinkKnownOfIndices(rec2, l.row.patientName, l.table, p, s + 1);
    KnownNameLinks(rec2, l.row.patientName, l.table, operatorName2);
  }

  // ---------------------------------------------------------------------
  // The failing checks of the linkage

  /** A known name whose folder is already in the table: the sanity check on the folder fails. */
  lemma KnownFolderRejected(rec: ScanRecord, t: seq<Row>, operatorName: Option<string>, name: string)
    requires ResolveName(rec.folderGt, rec.patientNames, operatorName) == Ok(name)
    requires KnownName(t, name) && HasFolder(t, rec.folderGt)
    ensures Link(rec, Some(t), operatorName) == Err(DuplicateFolder(rec.folderGt))
  {
    KnownNameLinks(rec, name, t, operatorName);
  }

  /**
   * A known name, a new folder, and two rows of the name with different
   * patient codes: the check for a single patient code fails.
   */
  lemma ConflictingCodesRejected(rec: ScanRecord, t: seq<Row>, operatorName: Option<string>, name: string, i: nat, j: nat)
    requires ResolveName(rec.folderGt, rec.patientNames, operatorName) == Ok(name)
    requires !HasFolder(t, rec.folderGt)
    requires i < |t| && j < |t| && t[i].patientName == name && t[j].patientName == name
    requires t[i].anonymizedPt != t[j].anonymizedPt
    ensures Link(rec, Some(t), operatorName) == Err(CorruptLinkTable(name, PtColumn(NameRows(t, name))))
  {
    var ki := RowInColumns(t, name, i);
    var kj := RowInColumns(t, name, j);
    TwoValuesSet(PtColumn(NameRows(t, name)), ki, kj);
    KnownNameLinks(rec, name, t, operatorName);
    KnownIndicesCorrupt(rec, name, t);
  }

  /** A column holding two different codes has more than one distinct code. */
  lemma TwoValuesSet(codes: seq<string>, a: nat, b: nat)
    requires a < |codes| && b < |codes| && codes[a] != codes[b]
    ensures |set x | x in codes| != 1
  {
    var values := set x | x in codes;
    assert codes[a] in values && codes[b] in values;
    if |values| == 1 {
      SingletonSet(values, codes[a]);
    }
  }

  lemma KnownIndicesCorrupt(rec: ScanRecord, name: string, t: seq<Row>)
    requires !HasFolder(t, rec.folderGt) && |set x | x in PtColumn(NameRows(t, name))| != 1
    ensures LinkKnown(rec, name, t) == Err(CorruptLinkTable(name, PtColumn(NameRows(t, name))))
  {
  }

  /**
   * A known name, a new folder, and a patient code shared by all the name's
   * rows that int() cannot read: the patient index cannot be read.
   */
  lemma UnreadableCodeRejected(rec: ScanRecord, t: seq<Row>, operatorName: Option<string>, name: string, c: string)
    requires ResolveName(rec.folderGt, rec.patientNames, operatorName) == Ok(name)
    requires KnownName(t, name) && !HasFolder(t, rec.folderGt)
    requires forall i :: 0 <= i < |t| && t[i].patientName == name ==> t[i].anonymizedPt == c
    requires PatientIndex(c).None?
    ensures Link(rec, Some(t), operatorName) == Err(MalformedCode(c))
  {
    var codes := PtColumn(NameRows(t, name));
    NameRowsCarry(t, name, c);
    KnownIffRows(t, name);
    SingleValueSet(codes, c);
    KnownNameLinks(rec, name, t, operatorName);
    KnownIndicesUnreadable(rec, name, t);
  }

  lemma KnownIndicesUnreadable(rec: ScanRecord, name: string, t: seq<Row>)
    requires !HasFolder(t, rec.folderGt)
    requires |PtColumn(NameRows(t, name))| > 0 && |set x | x in PtColumn(NameRows(t, name))| == 1
    requires PatientIndex(PtColumn(NameRows(t, name))[0]).None?
    ensures LinkKnown(rec, name, t) == Err(MalformedCode(PtColumn(NameRows(t, name))[0]))
  {
  }

  /** A link file with no rows: a new name finds no patient index to take the max() of. */
  lemma EmptyTableRejected(rec: ScanRecord, operatorName: Option<string>, name: string)
    requires ResolveName(rec.folderGt, rec.patientNames, operatorName) == Ok(name)
    ensures Link(rec, Some([]), operatorName) == Err(EmptyLinkTable)
  {
    assert !KnownName([], name);
    assert PtColumn([]) == [];
    assert ParseAll([], PatientIndex) == Ok([]);
  }

  // ---------------------------------------------------------------------
  // Dense scan indices

  /** Some row carries the patient code ptCode and the scan index s. */
  predicate HasScan(t: seq<Row>, ptCode: string, s: nat) {
    exists j :: 0 <= j < |t| && t[j].anonymizedPt == ptCode && ScanIndex(t[j].anonymizedScanfolder) == Some(s)
  }

  /**
   * The scan indices of every patient code start at 1 and have no gaps:
   * below each stored scan index of a code, every index down to 1 is stored
   * with that code too. With unique scan codes, a patient's scans are
   * exactly 1, 2, ..., k.
   */
  predicate DenseScans(t: seq<Row>) {
    && (forall i :: 0 <= i < |t| && ScanIndex(t[i].anonymizedScanfolder).Some? ==> ScanIndex(t[i].anonymizedScanfolder).value >= 1)
    && (forall i, s :: 0 <= i < |t| && ScanIndex(t[i].anonymizedScanfolder).Some? && 1 <= s <= ScanIndex(t[i].anonymizedScanfolder).value ==>
          HasScan(t, t[i].anonymizedPt, s))
  }

  lemma HasScanAppend(t: seq<Row>, row: Row, ptCode: string, s: nat)
    requires HasScan(t, ptCode, s)
    ensures HasScan(t + [row], ptCode, s)
  {
    var j :| 0 <= j < |t| && t[j].anonymizedPt == ptCode && ScanIndex(t[j].anonymizedScanfolder) == Some(s);
    assert (t + [row])[j] == t[j];
  }

  /** Appending the scan n of a code whose scans 1 .. n - 1 are stored keeps the scans dense. */
  lemma AppendKeepsDenseScans(t: seq<Row>, row: Row, n: nat)
    requires DenseScans(t)
    requires ScanIndex(row.anonymizedScanfolder) == Some(n) && n >= 1
    requires forall s :: 1 <= s < n ==> HasScan(t, row.anonymizedPt, s)
    ensures DenseScans(t + [row])
  {
    var u := t + [row];
    forall i, s | 0 <= i < |u| && ScanIndex(u[i].anonymizedScanfolder).Some? && 1 <= s <= ScanIndex(u[i].anonymizedScanfolder).value
      ensures HasScan(u, u[i].anonymizedPt, s)
    {
      if i < |t| {
        assert u[i] == t[i];
        HasScanAppend(t, row, t[i].anonymizedPt, s);
      } else if s == n {
        assert u[|t|] == row;
      } else {
        HasScanAppend(t, row, row.anonymizedPt, s);
      }
    }
  }

  /**
   * The linkage keeps every patient's scan indices dense: a new patient
   * starts at scan 1, and a known patient gets one more than a scan index
   * already stored under its code.
   */
  lemma LinkPreservesDenseScans(rec: ScanRecord, table: Option<seq<Row>>, operatorName: Option<string>)
    requires WellFormed(TableRows(table)) && DenseScans(TableRows(table)) && Link(rec, table, operatorName).Ok?
    ensures DenseScans(Link(rec, table, operatorName).value.table)
  {
    var l := Link(rec, table, operatorName).value;
    var t := TableRows(table);
    var row := l.row;
    match table
    case None =>
      NoTableFirstCodes(rec, operatorName);
      AppendKeepsDenseScans(t, row, 1);
    case Some(_) =>
      if KnownName(t, row.patientName) {
        KnownPatientNextScan(rec, t, operatorName);
        KnownPatientKeepsCode(rec, t, operatorName);
        var n := ScanIndex(row.anonymizedScanfolder).value;
        var j :| 0 <= j < |t| && t[j].patientName == row.patientName &&
          ScanIndex(t[j].anonymizedScanfolder).value + 1 == n;
        forall s | 1 <= s < n ensures HasScan(t, row.anonymizedPt, s) {
          assert t[j].anonymizedPt == row.anonymizedPt;
        }
        AppendKeepsDenseScans(t, row, n);
      } else {
        NewPatientFreshCode(rec, t, operatorName);
        AppendKeepsDenseScans(t, row, 1);
      }
  }

  // ---------------------------------------------------------------------
  // Worked examples

  /** The indices read back from the first codes. */
  lemma FirstIndices()
    ensures PatientIndex("P0001") == Some(1) && ScanIndex("P0001_01") == Some(1)
  {
    FirstCodes();
    PatientCodeRoundTrip(1);
    ScanCodeRoundTrip(1, 1);
  }

  /** An empty start: the first folder of "Jane Doe" becomes P0001_01. */
  lemma FirstFolder()
    ensures Link(ScanRecord("GT001", ["Jane Doe"]), None, None)
      == Ok(Linked(Row("GT001", "Jane Doe", "P0001", "P0001_01"), [Row("GT001", "Jane Doe", "P0001", "P0001_01")]))
  {
    var rec := ScanRecord("GT001", ["Jane Doe"]);
    assert ANONYMOUS !in rec.patientNames;
    assert ResolveName(rec.folderGt, rec.patientNames, None) == Ok("Jane Doe");
    FirstCodes();
    var row := Row("GT001", "Jane Doe", "P0001", "P0001_01");
    assert Assign(rec, "Jane Doe", 1, 1, []).row == row;
    assert [] + [row] == [row];
    assert Link(rec, None, None) == Ok(Assign(rec, "Jane Doe", 1, 1, []));
  }

  /** A second folder of "Jane Doe" keeps P0001 and becomes P0001_02. */
  lemma SecondFolderSamePatient()
    ensures Link(ScanRecord("GT002", ["Jane Doe"]), Some([Row("GT001", "Jane Doe", "P0001", "P0001_01")]), None)
      == Ok(Linked(Row("GT002", "Jane Doe", "P0001", "P0001_02"),
                   [Row("GT001", "Jane Doe", "P0001", "P0001_01"), Row("GT002", "Jane Doe", "P0001", "P0001_02")]))
  {
    SecondFolderOf("GT001", "GT002", "Jane Doe");
  }

  /** Any second folder of the patient stored as P0001 / P0001_01 becomes P0001_02. */
  lemma SecondFolderOf(folder1: string, folder2: string, name: string)
    requires folder1 != folder2 && name != ANONYMOUS
    ensures Link(ScanRecord(folder2, [name]), Some([Row(folder1, name, "P0001", "P0001_01")]), None)
      == Ok(Linked(Row(folder2, name, "P0001", "P0001_02"),
                   [Row(folder1, name, "P0001", "P0001_01"), Row(folder2, name, "P0001", "P0001_02")]))
  {
    var row1 := Row(folder1, name, "P0001", "P0001_01");
    var rec2 := ScanRecord(folder2, [name]);
    FirstIndices();
    SecondFolderKnown(folder1, folder2, name, "P0001", "P0001_01");
    SecondAssigned(rec2, name, row1);
    assert ResolveName(folder2, [name], None) == Ok(name);
    assert [row1][0].patientName == name;
    KnownNameLinks(rec2, name, [row1], None);
  }

  /** A name that resolves and is in the table takes the known branch. */
  lemma KnownNameLinks(rec: ScanRecord, name: string, t: seq<Row>, operatorName: Option<string>)
    requires ResolveName(rec.folderGt, rec.patientNames, operatorName) == Ok(name)
    requires exists i :: 0 <= i < |t| && t[i].patientName == name
    ensures Link(rec, Some(t), operatorName) == LinkKnown(rec, name, t)
  {
  }

  /** Patient 1, scan 2 after a one-row table of patient 1: the row P0001 / P0001_02. */
  lemma SecondAssigned(rec2: ScanRecord, name: string, row1: Row)
    ensures Assign(rec2, name, 1, 2, [row1]) ==
      Linked(Row(rec2.folderGt, name, "P0001", "P0001_02"), [row1, Row(rec2.folderGt, name, "P0001", "P0001_02")])
  {
    FirstCodes();
    var row2 := Row(rec2.folderGt, name, "P0001", "P0001_02");
    assert [row1] + [row2] == [row1, row2];
  }

  /** The known branch on a one-row table whose codes read back as patient 1, scan 1: patient 1, scan 2. */
  lemma SecondFolderKnown(folder1: string, folder2: string, name: string, ptCode: string, scanCode: string)
    requires folder1 != folder2
    requires PatientIndex(ptCode) == Some(1) && ScanIndex(scanCode) == Some(1)
    ensures var row1 := Row(folder1, name, ptCode, scanCode);
      var rec2 := ScanRecord(folder2, [name]);
      LinkKnown(rec2, name, [row1]) == Ok(Assign(rec2, name, 1, 2, [row1]))
  {
    var row1 := Row(folder1, name, ptCode, scanCode);
    var rec2 := ScanRecord(folder2, [name]);
    assert !HasFolder([row1], folder2);
    assert [row1][..0] == [];
    assert NameRows([row1], name) == [row1];
    assert PtColumn([row1]) == [ptCode];
    assert ScanColumn([row1]) == [] + [scanCode];
    HighestIndexAppend([], scanCode, ScanIndex);
    var col := PtColumn(NameRows([row1], name));
    assert col == [ptCode];
    forall k | 0 <= k < |col| ensures col[k] == ptCode {
      assert k == 0;
    }
    LinkKnownFromCodes(rec2, name, [row1], ptCode, 1);
    LinkKnownOfIndices(rec2, name, [row1], 1, 2);
    assert PatientIndex(ptCode).value == 1;
  }

  /** Re-processing GT001 after it was linked is refused. */
  lemma ReprocessedFolderRejected()
    ensures Link(ScanRecord("GT001", ["Jane Doe"]), Some([Row("GT001", "Jane Doe", "P0001", "P0001_01")]), None)
      == Err(DuplicateFolder("GT001"))
  {
    FirstFolder();
    SecondRunRejected(ScanRecord("GT001", ["Jane Doe"]), None, None);
  }

  /**
   * The known-patient branch re-formats the stored code rather than reusing
   * it, so a code not written as P%04d (here "P1") is not kept.
   */
  lemma NonCanonicalCodeReformatted()
    ensures var t := [Row("GT001", "Jane Doe", "P1", "P1_01")];
      var r := Link(ScanRecord("GT002", ["Jane Doe"]), Some(t), None);
      r.Ok? && r.value.row.anonymizedPt == "P0001" && !CodePerName(r.value.table)
  {
    NonCanonicalOf("GT001", "GT002", "Jane Doe");
  }

  lemma NonCanonicalOf(folder1: string, folder2: string, name: string)
    requires folder1 != folder2 && name != ANONYMOUS
    ensures var t := [Row(folder1, name, "P1", "P1_01")];
      var r := Link(ScanRecord(folder2, [name]), Some(t), None);
      r.Ok? && r.value.row.anonymizedPt == "P0001" && !CodePerName(r.value.table)
  {
    var row1 := Row(folder1, name, "P1", "P1_01");
    var rec2 := ScanRecord(folder2, [name]);
    ShortCodeIndices();
    SecondFolderKnown(folder1, folder2, name, "P1", "P1_01");
    assert ResolveName(folder2, [name], None) == Ok(name);
    assert [row1][0].patientName == name;
    assert KnownName([row1], name);
    assert Link(rec2, Some([row1]), None) == Ok(Assign(rec2, name, 1, 2, [row1]));
    FirstCodes();
    var row2 := Assign(rec2, name, 1, 2, [row1]).row;
    assert row2.anonymizedPt == "P0001";
    var t' := [row1] + [row2];
    assert t'[0] == row1 && t'[1] == row2;
    assert "P1" != "P0001" by { assert |"P1"| != |"P0001"|; }
    assert !CodePerName(t') by {
      assert t'[0].patientName == t'[1].patientName && t'[0].anonymizedPt != t'[1].anonymizedPt;
    }
  }

  /** The indices read back from the codes "P1" and "P1_01". */
  lemma ShortCodeIndices()
    ensures PatientIndex("P1") == Some(1) && ScanIndex("P1_01") == Some(1)
  {
    assert Strip("P1", 'P') == "1";
    assert Value("1") == 1 by { assert "1"[..0] == ""; }
    assert Strip("P1_01", 'P') == "1_01";
    SplitFirst("1", '_', "01");
    SplitNoSeparator("01", '_');
    assert "1" + "_" + "01" == "1_01";
    assert Value("01") == 1 by {
      assert "01"[..1] == "0";
      assert "0"[..0] == "";
    }
  }

}

=== FILE: series_folder.dfy ===
/**
 * The name of the folder a series' images are exported to: the series
 * description ("N/A" when the series has none) with the characters a file
 * system path cannot safely hold replaced, one replacement after another:
 * spaces by "_", "*" by "Star", ":" by "_", "/" by "-" and "?" by "-".
 */
module SeriesFolder {
  import opened Wrappers

  /** Every occurrence of the character c in s replaced by the string with (str.replace with a one-character pattern). */
  function Replace(s: string, c: char, with: string): (r: string)
    ensures c !in with ==> c !in r
    ensures c !in s ==> r == s
    ensures forall ch :: ch in r ==> (ch in s && ch != c) || ch in with
  {
    if s == [] then []
    else (if s[0] == c then with else [s[0]]) + Replace(s[1..], c, with)
  }

  /** The description recorded for a series: its own, or "N/A" when it has none. */
  function Description(desc: Option<string>): string {
    match desc
    case Some(s) => s
    case None => "N/A"
  }

  /** The characters the folder name may not contain. */
  predicate Forbidden(ch: char) {
    ch == ' ' || ch == '*' || ch == ':' || ch == '/' || ch == '?'
  }

  /** The chain of five replacements applied to a series description. */
  function SeriesFolderName(desc: string): (name: string)
    ensures forall ch :: ch in name ==> !Forbidden(ch)
  {
    Replace(Replace(Replace(Replace(Replace(desc, ' ', "_"), '*', "Star"), ':', "_"), '/', "-"), '?', "-")
  }

  // ---------------------------------------------------------------------
  // A reference definition, one character at a time

  /** What a single character of the description becomes in the folder name. */
  function CharImage(ch: char): string {
    if ch == ' ' then "_"
    else if ch == '*' then "Star"
    else if ch == ':' then "_"
    else if ch == '/' || ch == '?' then "-"
    else [ch]
  }

  /** The description with every character replaced by its image. */
  function Sanitize(s: string): string {
    if s == [] then [] else CharImage(s[0]) + Sanitize(s[1..])
  }

  /** Replacing in a concatenation replaces in each part. */
  lemma {:induction false} ReplaceConcat(a: string, b: string, c: char, with: string)
    ensures Replace(a + b, c, with) == Replace(a, c, with) + Replace(b, c, with)
  {
    if a == [] {
      assert a + b == b;
    } else {
      assert (a + b)[0] == a[0];
      assert (a + b)[1..] == a[1..] + b;
      ReplaceConcat(a[1..], b, c, with);
    }
  }

  /** Replacing in a one-character string. */
  lemma ReplaceOne(x: char, c: char, with: string)
    ensures Replace([x], c, with) == if x == c then with else [x]
  {
    assert [x][1..] == [];
  }

  /** The chain on a one-character description gives the image of that character. */
  lemma ChainOnImage(ch: char)
    ensures SeriesFolderName([ch]) == CharImage(ch)
  {
    if ch == ' ' {
      ReplaceOne(ch, ' ', "_");
      var r := Replace([ch], ' ', "_");
      assert r == "_";
      assert '*' !in r && ':' !in r && '/' !in r && '?' !in r;
    } else if ch == '*' {
      ReplaceOne(ch, ' ', "_");
      ReplaceOne(ch, '*', "Star");
      var r := Replace(Replace([ch], ' ', "_"), '*', "Star");
      assert r == "Star";
      assert ':' !in r && '/' !in r && '?' !in r;
    } else if ch == ':' {
      ReplaceOne(ch, ':', "_");
      var r := Replace([ch], ':', "_");
      assert r == "_";
      assert '/' !in r && '?' !in r;
    } else if ch == '/' {
      ReplaceOne(ch, '/', "-");
      var r := Replace([ch], '/', "-");
      assert r == "-";
      assert '?' !in r;
    } else if ch == '?' {
      ReplaceOne(ch, '?', "-");
    }
  }

  /**
   * The five replacements in a row agree with the one-character-at-a-time
   * definition: no replacement text contains a character a later
   * replacement looks for, so the order of the chain does not matter.
   */
  lemma {:induction false} ChainIsCharMap(s: string)
    ensures SeriesFolderName(s) == Sanitize(s)
  {
    if s != [] {
      var head, tail := [s[0]], s[1..];
      assert s == head + tail;
      var r1h, r1t := Replace(head, ' ', "_"), Replace(tail, ' ', "_");
      ReplaceConcat(head, tail, ' ', "_");
      var r2h, r2t := Replace(r1h, '*', "Star"), Replace(r1t, '*', "Star");
      ReplaceConcat(r1h, r1t, '*', "Star");
      var r3h, r3t := Replace(r2h, ':', "_"), Replace(r2t, ':', "_");
      ReplaceConcat(r2h, r2t, ':', "_");
      var r4h, r4t := Replace(r3h, '/', "-"), Replace(r3t, '/', "-");
      ReplaceConcat(r3h, r3t, '/', "-");
      ReplaceConcat(r4h, r4t, '?', "-");
      assert SeriesFolderName(s) == SeriesFolderName(head) + SeriesFolderName(tail);
      ChainOnImage(s[0]);
      ChainIsCharMap(tail);
    }
  }

  /** A description without forbidden characters is used as the folder name unchanged. */
  lemma CleanUnchanged(desc: string)
    requires forall ch :: ch in desc ==> !Forbidden(ch)
    ensures SeriesFolderName(desc) == desc
  {
  }

  /** Sanitising a folder name a second time changes nothing. */
  lemma Idempotent(desc: string)
    ensures SeriesFolderName(SeriesFolderName(desc)) == SeriesFolderName(desc)
  {
    CleanUnchanged(SeriesFolderName(desc));
  }

  /** Number of occurrences of ch in s. */
  function Count(s: string, ch: char): nat {
    if s == [] then 0 else (if s[0] == ch then 1 else 0) + Count(s[1..], ch)
  }

  /** Only "*" changes the length: each one grows into the four letters of "Star". */
  lemma {:induction false} FolderNameLength(desc: string)
    ensures |SeriesFolderName(desc)| == |desc| + 3 * Count(desc, '*')
  {
    SanitizeLength(desc);
    ChainIsCharMap(desc);
  }

  lemma {:induction false} SanitizeLength(s: string)
    ensures |Sanitize(s)| == |s| + 3 * Count(s, '*')
  {
    if s != [] {
      SanitizeLength(s[1..]);
    }
  }

  /** Sanitising a concatenation sanitises each part. */
  lemma {:induction false} SanitizeConcat(a: string, b: string)
    ensures Sanitize(a + b) == Sanitize(a) + Sanitize(b)
  {
    if a == [] {
      assert a + b == b;
    } else {
      assert (a + b)[0] == a[0];
      assert (a + b)[1..] == a[1..] + b;
      SanitizeConcat(a[1..], b);
    }
  }

  lemma SanitizeOne(ch: char)
    ensures Sanitize([ch]) == CharImage(ch)
  {
    assert [ch][1..] == [];
  }

  /**
   * Different descriptions can share a folder: a space and a colon both
   * become "_", so "T1 AX" and "T1:AX" are written to the same folder.
   */
  lemma {:induction false} SpaceAndColonCollide(before: string, after: string)
    ensures SeriesFolderName(before + " " + after) == SeriesFolderName(before + ":" + after)
  {
    ChainIsCharMap(before + " " + after);
    ChainIsCharMap(before + ":" + after);
    SanitizeConcat(before + " ", after);
    SanitizeConcat(before, " ");
    SanitizeConcat(before + ":", after);
    SanitizeConcat(before, ":");
    SanitizeOne(' ');
    SanitizeOne(':');
  }

  /** A series without a description is exported to the folder "N-A". */
  lemma MissingDescriptionFolder()
    ensures SeriesFolderName(Description(None)) == "N-A"
  {
    assert Description(None) == "N/A";
    NotApplicableFolder();
  }

  lemma NotApplicableFolder()
    ensures SeriesFolderName("N/A") == "N-A"
  {
    ChainIsCharMap("N/A");
    SanitizeNotApplicable();
  }

  lemma SanitizeNotApplicable()
    ensures Sanitize("N/A") == "N-A"
  {
  }
}

=== FILE: wrappers.dfy ===
/** Option and Result values used for absent values and error returns. */
module Wrappers {

  datatype Option<+T> = None | Some(value: T)

  datatype Result<+T, +E> = Ok(value: T) | Err(error: E)
}
